=== FILE: README.md ===
# Release serializer merge logic, in Dafny

This project models the pure merge and aggregation logic of Sentry's release
serializer (`src/sentry/api/serializers/models/release.py`). The serializer
turns a batch of `Release` rows into API dictionaries. It fans out one query
per kind of related data (commit authors, commits, deploys, project links,
first/last sightings, issue counts, health data) and then merges the answers
per release. Every database, cache and time-series answer is an input value
here: a sequence of rows in query order, or a map. What is verified is what
the serializer does with those answers.

Modules, one per part of the source:

- `Authors`: `_user_to_author_cache_key` and `get_users_for_authors`.
  It splits authors into cache hits and misses and builds the first-wins
  e-mail→user map. Each author resolves to a user or to a
  `{"name", "email"}` record (`Resolved`), and the cache write-back is an output.
- `CommitMetadata`: `_get_commit_metadata` (e-mail-unique, order-preserving
  author lists; `last_commit`) and `_get_deploy_metadata`.
- `ReleaseData`: `__get_project_id_list`, both first/last-seen folds and
  the `group_counts_by_release` folds.
- `Attrs`: the per-release loop of `get_attrs`, including the project entries,
  `has_health_data`, `new_groups` and the errors it raises.
- `VersionInfo`: `expose_version_info`.
- `Text`, `Collections`, `Wrappers`, `Releases`: ASCII lower-casing, subsequences,
  `defaultdict(list)` grouping, insertion-ordered Python dicts,
  `Option`/`Result`, and the `Release` row.

Conventions:

- Python `None` is `Option.None`.
- An exception is a `Result.Failure` carrying an `Attrs.Error`.
- Ids are integers, because `str(id)` is injective.
- Timestamps are integers, because only their order is used.

## Model

| member | source | states |
|---|---|---|
| `Text.LowerAgreesIffEqualsIgnoringCase` | src/sentry/api/serializers/models/release.py:101-104 | lower-cased addresses are equal exactly when the addresses are equal up to letter case (both directions, against a per-character definition) |
| `Authors.CacheKeyIgnoresCase` | src/sentry/api/serializers/models/release.py:50-52 | two authors get the same cache key if and only if same organization and e-mails equal up to case; the key depends on nothing else |
| `Authors.CachedResults` | src/sentry/api/serializers/models/release.py:75-80 | the hit loop fills an entry for exactly the authors whose key was fetched |
| `Authors.Missed` | src/sentry/api/serializers/models/release.py:74-78 | missed authors are exactly those whose key was not fetched, in their original order |
| `Authors.SplitByCache` | src/sentry/api/serializers/models/release.py:70-82 | with or without any hit, an author is missed exactly when its key is not cached, and every hit already has its entry |
| `Authors.MatchingEmails` | src/sentry/api/serializers/models/release.py:86-88 | the `in_iexact` filter keeps exactly the table rows whose lower-cased address is a missed author's |
| `Authors.UsersByEmail` | src/sentry/api/serializers/models/release.py:100-109 | every user in the e-mail map is one of the organization's users; rows of users outside it are never mapped |
| `Authors.UsersByEmailIsFirstWins` | src/sentry/api/serializers/models/release.py:100-109 | an address is mapped exactly when some row has an eligible user, and it is mapped to the first such row's user in id order |
| `Authors.UsersByEmailGrows` | src/sentry/api/serializers/models/release.py:104 | later rows never overwrite an address already mapped |
| `Authors.FirstUserFiltered` | src/sentry/api/serializers/models/release.py:86-88 | the e-mail pre-filter changes no answer for the addresses it keeps |
| `Authors.FirstUserRestricted` | src/sentry/api/serializers/models/release.py:92-98 | restricting users to the rows' user ids changes no answer |
| `Authors.ResolveMissed` | src/sentry/api/serializers/models/release.py:110-115 | after the miss loop every missed author has an entry, and a cache write exists for exactly the missed authors' keys |
| `Authors.MissResolvesAgainstWholeTable` | src/sentry/api/serializers/models/release.py:84-114 | a missed author resolves to the first active member registered under its address (whole table, case-insensitive), else to its own name and e-mail |
| `Authors.GetUsersForAuthors` | src/sentry/api/serializers/models/release.py:68-120 | every author passed in has exactly one entry, keyed by its id; cache writes are for exactly the authors whose key was not cached |
| `Authors.GetUsersForAuthorsResolvesEachAuthor` | src/sentry/api/serializers/models/release.py:68-115 | each author's entry is the cached value on a hit, else the first matching member, else `{"name", "email"}` |
| `Authors.CacheWritesMatchResults` | src/sentry/api/serializers/models/release.py:110-116 | the value written back for a missed author is the value returned for it |
| `Authors.SecondLookupIsServedFromCache` | src/sentry/api/serializers/models/release.py:70-116 | a second call over the updated cache misses nothing, writes nothing and returns the same entries |
| `Authors.ResolveMissedWriteIsLast` | src/sentry/api/serializers/models/release.py:111-115 | the one write for a key holds the resolution of the last missed author with that key |
| `Authors.CacheWriteIsLastSharer` | src/sentry/api/serializers/models/release.py:70-116 | when authors' addresses differ only in case, their shared key is written with the result of the last of them, whatever the others resolved to |
| `CommitMetadata.AuthorsWithIds` | src/sentry/api/serializers/models/release.py:143-146 | the author query returns exactly the table rows whose id is listed by some release |
| `CommitMetadata.NoIdsNoAuthors` | src/sentry/api/serializers/models/release.py:143-146 | with no author ids the query matches no author, so the `if author_ids:` guard changes nothing |
| `CommitMetadata.UsersByAuthor` | src/sentry/api/serializers/models/release.py:143-157 | `users_by_author` is empty unless all releases share one organization, and then it is `get_users_for_authors` over the releases' listed authors; its keys are listed author ids |
| `CommitMetadata.SingleOrganization` | src/sentry/api/serializers/models/release.py:149-155 | an organization is chosen exactly when the releases' organization ids form a one-element set, and it is that element |
| `CommitMetadata.ReleaseAuthors` | src/sentry/api/serializers/models/release.py:166-173 | a release's authors carry pairwise distinct e-mails and are an order-preserving subsequence of its resolved authors, unresolved ids dropped |
| `CommitMetadata.ReleaseAuthorsKeepFirst` | src/sentry/api/serializers/models/release.py:168-173 | every e-mail among the resolved authors is kept, and with the first author that carries it |
| `CommitMetadata.MixedOrganizationsHaveNoAuthors` | src/sentry/api/serializers/models/release.py:148-157 | releases spanning several organizations all get an empty author list |
| `CommitMetadata.GetCommitMetadata` | src/sentry/api/serializers/models/release.py:159-179 | one entry per release; its authors are its listed ids looked up in `users_by_author`, de-duplicated by e-mail; `last_commit` present exactly when the id is set (not `None`/0) and the commit exists |
| `CommitMetadata.GetDeployMetadata` | src/sentry/api/serializers/models/release.py:195-205 | one entry per release; `last_deploy` present exactly when the id is set and the deploy exists, and then it is that deploy |
| `ReleaseData.Insert` | src/sentry/api/serializers/models/release.py:213 | adding an id to a sorted duplicate-free list keeps it sorted and duplicate-free, and its values are the old values plus `x` |
| `ReleaseData.CollectProjectIds` | src/sentry/api/serializers/models/release.py:208-215 | the loop collects the sorted set of all `_for_project_id`s and flags a fallback exactly when some release has none |
| `ReleaseData.GetProjectIdList` | src/sentry/api/serializers/models/release.py:207-227 | `True` exactly when every release has a project id, and then the ids are sorted, duplicate-free and exactly those ids; otherwise `False` with the fallback query's ids |
| `ReleaseData.SeenFromTags` | src/sentry/api/serializers/models/release.py:241-245 | `first_seen` maps exactly the versions with rows, each to the least first sighting; `last_seen` likewise to the greatest last sighting |
| `ReleaseData.SeenFromEnvironments` | src/sentry/api/serializers/models/release.py:268-278 | the compare-and-overwrite loop yields the same per-version minimum and maximum, and no entry for a version without rows |
| `ReleaseData.KeepEarlier` | src/sentry/api/serializers/models/release.py:269-273 | overwriting only when new or earlier stores the minimum of the old and new value |
| `ReleaseData.KeepLater` | src/sentry/api/serializers/models/release.py:274-278 | overwriting only when new or later stores the maximum of the old and new value |
| `ReleaseData.SeenFoldsAgree` | src/sentry/api/serializers/models/release.py:236-278 | the two differently written folds give identical maps on every input |
| `ReleaseData.CountsForProject` | src/sentry/api/serializers/models/release.py:247-252 | with a project given, every release's count dict has that project as its only key |
| `ReleaseData.CountsMerged` | src/sentry/api/serializers/models/release.py:254-257 | the `setdefault` merge never produces a duplicate project key in a release's dict |
| `ReleaseData.NonNull` | src/sentry/api/serializers/models/release.py:254-256 | the `new_groups__isnull=False` filter keeps exactly the rows with a count |
| `ReleaseData.CountsForProjectIsLastRow` | src/sentry/api/serializers/models/release.py:248-252 | a release's dict is `{project: count}` from its last row, `{}` without rows |
| `ReleaseData.CountsMergedIsLastRow` | src/sentry/api/serializers/models/release.py:254-257 | each (release, project) entry holds the count of the last row for that pair, absent without one |
| `ReleaseData.MergedKeyOrder` | src/sentry/api/serializers/models/release.py:254-257 | a release's merged dict lists its projects in order of first appearance: reassigning a project keeps its place |
| `ReleaseData.MergedValuesAreLastCounts` | src/sentry/api/serializers/models/release.py:254-257 | the merged dict's values are exactly each project's last count, in order of first appearance, repeated pairs included |
| `ReleaseData.MergedSumIsRowsTotal` | src/sentry/api/serializers/models/release.py:394 | summing a release's merged dict equals the total over all of its rows |
| `Collections.GroupByCollectsInOrder` | src/sentry/api/serializers/models/release.py:339-341 | `defaultdict(list)` grouping keeps under each key exactly that key's values in row order, `[]` for absent keys |
| `Collections.Put` | src/sentry/api/serializers/models/release.py:257 | dict assignment stores the value under the key, leaves every other key's value alone and adds only that key |
| `Collections.PutKeyOrder` | src/sentry/api/serializers/models/release.py:257 | assigning to a present key keeps the key order; a new key goes last |
| `VersionInfo.Expose` | src/sentry/api/serializers/models/release.py:27-47 | `None` exactly for `None`; `raw`, `package`, `description` and `buildHash` are copied; the parsed keys are present exactly when a parsed version exists, each equal to its parsed field |
| `VersionInfo.ExposeRoundTrip` | src/sentry/api/serializers/models/release.py:27-47 | the exposed object can be read back into the stored record: no field is lost |
| `Attrs.EffectiveEnvironments` | src/sentry/api/serializers/models/release.py:293-299 | no environment filter exactly when neither a non-empty list nor a single environment is given; a non-empty list is used as is, and otherwise a single environment becomes the one-name list `[environment]` |
| `Attrs.SeenFor` | src/sentry/api/serializers/models/release.py:309-318 | the chosen fold gives the per-version minimum and maximum over the rows of the chosen source |
| `Attrs.ProjectEntryOf` | src/sentry/api/serializers/models/release.py:339-379 | `platforms` is the project's list from `platforms_by_project`, empty when it has none; with health data, the entry carries the overview record and its flag, `False` without a record; otherwise no `health_data` key and the flag is membership in the reported set |
| `Attrs.FilterProject` | src/sentry/api/serializers/models/release.py:386-389 | keeps exactly the entries of the bound project, in order |
| `Attrs.AssembleRelease` | src/sentry/api/serializers/models/release.py:383-406 | a release fails with the `NULL`-sum error exactly when its count sum meets a `NULL`; the `owners[...]` `KeyError` only for an owner missing from `owners`; otherwise its projects are its filtered `release_projects` entries, its first/last seen are its version's entries, its owner is its `owners` entry (`None` without an owner id), and its authors, last commit and last deploy are the ones given for it |
| `Attrs.AssembleAll` | src/sentry/api/serializers/models/release.py:382-408 | succeeds exactly when every release assembles, with one result per release in order; a failure is some release's error |
| `Attrs.GetAttrs` | src/sentry/api/serializers/models/release.py:288-408 | `with_health_data` plus `no_snuba` raises the health error, and only that combination does; otherwise a release whose owner row is missing raises before any release is assembled, and only then; on success every release has an entry |
| `Attrs.FirstMissingOwner` | src/sentry/api/serializers/models/release.py:320 | no owner is reported exactly when every release's set owner id has a user row; otherwise it is the owner of the first such release in list order |
| `Attrs.OwnersLoaded` | src/sentry/api/serializers/models/release.py:320 | when no owner row is missing, the `owners` dict holds the owner of every release that names one |
| `Attrs.AssembleAllFindsOwners` | src/sentry/api/serializers/models/release.py:383-397 | with every owner present, the per-release loop never fails on the `owners[...]` lookup |
| `Attrs.OwnerKeyErrorNeverRaised` | src/sentry/api/serializers/models/release.py:320-397 | `get_attrs` never fails on the `owners[...]` lookup: every owner it looks up was loaded at line 320 |
| `Attrs.EmptyBatchSucceeds` | src/sentry/api/serializers/models/release.py:305-307 | an empty batch fails exactly on the `with_health_data`/`no_snuba` conflict |
| `Attrs.GetAttrsSucceeds` | src/sentry/api/serializers/models/release.py:305-397 | `get_attrs` returns a result exactly when the flags agree, every named owner's row exists and no release's `new_groups` sum meets a `NULL` count |
| `Attrs.OneReleaseSucceeds` | src/sentry/api/serializers/models/release.py:288-408 | a one-release batch whose owner row exists and which has no counted rows gets a result, so the lemmas about a successful non-empty batch have instances |
| `Attrs.GetAttrsIsAssembly` | src/sentry/api/serializers/models/release.py:383-407 | each release's attributes are its own assembly from the shared lookups |
| `Attrs.ReleaseOwnerCommitsAndDeploy` | src/sentry/api/serializers/models/release.py:396-406 | in the result of `get_attrs`, a release's owner is its owner's `User` row (`None` without an owner id), its authors and last commit are its commit metadata, and its last deploy is its deploy metadata |
| `Attrs.ProjectsOfGroupedRows` | src/sentry/api/serializers/models/release.py:339-389 | grouping the `ReleaseProject` entries by release and taking one release's list gives exactly its own rows in row order, only the bound project's when `_for_project_id` is set |
| `Attrs.NoPresenceNoHealthData` | src/sentry/api/serializers/models/release.py:354-355 | entries built with the empty presence set report no health data and carry no `health_data` key |
| `Attrs.OverviewEntryReports` | src/sentry/api/serializers/models/release.py:370-374 | every entry built against the overview comes from one of the release's rows and carries that row's record and flag |
| `Attrs.ReleaseProjectsAreItsRows` | src/sentry/api/serializers/models/release.py:361-389 | a release's `projects` are its own project rows in query order, only the bound project's when `_for_project_id` is set |
| `Attrs.NewGroupsFromMergedRows` | src/sentry/api/serializers/models/release.py:386-394 | a project-bound release takes that project's last count or 0; otherwise the sum of each project's last count, which is the total of its rows when no (release, project) pair repeats |
| `Attrs.RepeatedPairKeepsLastCount` | src/sentry/api/serializers/models/release.py:281-284 | with two environment rows for one (release, project) pair, counting 3 and 5, `new_groups` is 5 while the rows total 8 |
| `Attrs.NewGroupsFromProjectRows` | src/sentry/api/serializers/models/release.py:386-394 | with a project given, a release bound to it takes its last count or 0, to another project 0; an unbound one takes the last count, and a `NULL` fails |
| `Attrs.FirstAndLastSeenOfRelease` | src/sentry/api/serializers/models/release.py:400-401 | a release's `first_seen`/`last_seen` are the least/greatest sightings among its version's rows, absent exactly when there are none |
| `Attrs.NoSnubaReportsNoHealthData` | src/sentry/api/serializers/models/release.py:354-355 | without snuba and without health data, no project entry reports health data |
| `Attrs.HealthFlagsFollowOverview` | src/sentry/api/serializers/models/release.py:370-374 | with health data, each entry comes from one of the release's rows and reports that row's overview flag, `False` without a record |

## Left out

- Database queries (`CommitAuthor`, `Commit`, `Deploy`, `ReleaseProject`, `ReleaseProjectEnvironment`, `ProjectPlatform`, `UserEmail`, `User`, the `Sum` annotation): their answers are inputs (`Attrs.Backend`), because database semantics are not part of this code. Filters written out in the code are modelled: `in_iexact`, `id__in` and `new_groups__isnull=False`.
- The Django cache: `cache.get_many` reads an input map, and `cache.set_many` is the `cacheWrites` output. `_get_commit_metadata` does not return the write-back.
- md5 hashing: the digest is a symbolic term `Md5(text)`, injective by construction. The key's textual form `get_users_for_authors:{org}:{hex}` is not built.
- `str.lower()` and SQL case-insensitive matching: modelled as ASCII case folding. Non-ASCII case mappings are not modelled.
- `metrics.incr` counters: they have no effect on results.
- The nested `serialize(...)` calls for users, commits, deploys and owners: their outputs are inputs (`User`, `Commit`, `Deploy`).
- `tagstore.get_release_tags`, `get_release_health_data_overview` and `check_has_health_data`: their answers are inputs. A health record keeps only its `has_health_data` flag.
- `__get_release_data_no_environment` passes the project-id list only to the tagstore call, which is an input here. So `GetProjectIdList` stands alone, and the fallback query's answer is a parameter.
- Datetimes are integers. `if first_val` at lines 244-245 tests a datetime, which is always truthy, so it is modelled as "a value is stored".
- `version_parsed` truthiness is modelled as `Option`: an empty parsed dict counts as absent.
- `ReleaseSerializer.serialize`, `expose_health_data` and `expose_project`: they only rename keys.
- `src/sentry/api/serializers/models/repository_project_path_config.py`: it copies fields and calls `serialize_provider`, which is not part of this model.
- `platform`, `slug`, `name` and the other fields a project entry copies from its `ReleaseProject` row are carried through unchanged and have no lemma of their own (`platforms` is not one of them: `Attrs.ProjectEntryOf` states it).
- Authors.UsersByEmailIsFirstWins: the `.order_by("id")` of line 87 is not modelled; the `userEmails` input is taken to be the `UserEmail` rows already in id order, and "first" means first in that input.
- Authors.GetUsersForAuthorsResolvesEachAuthor: states each entry's value only when author ids are distinct, as primary keys are. With a repeated id the later assignment wins; the function computes this, but no lemma describes it.
- Authors.CacheWritesMatchResults: assumes no two authors share a cache key. With authors whose addresses differ only in case, the shared key is written with the last author's record, so an earlier author's own `{"name", "email"}` result differs from what is written for its key; `CacheWriteIsLastSharer` states what is written in that case.
- Authors.SecondLookupIsServedFromCache: assumes no two authors share a cache key. Two unknown authors whose addresses differ only in case share one key, so only one of their `{"name", "email"}` records is written back.
- ReleaseData.MergedSumIsRowsTotal: assumes each (release, project) pair occurs once. That holds for `ReleaseProject` rows (lines 254-256), but not for `ReleaseProjectEnvironment` rows (lines 281-284), which repeat a pair once per environment; `MergedValuesAreLastCounts` covers repeated pairs.
- Attrs.NewGroupsFromMergedRows: states the total of a release's rows only when no pair repeats, in effect only without an environment filter. With one, the `Sum` annotation at line 282 precedes `values_list`, so each row keeps its own count. The merge then keeps the last environment's count per project, and the lemma's first clause states that sum instead (`RepeatedPairKeepsLastCount` shows an instance).
- Attrs.AssembleRelease: returns `OwnerKeyError` when `owners` lacks a release's owner, as line 397 would raise on any dict. Within `GetAttrs` that cannot happen, because a missing user row already fails at line 320 (`MissingOwner`); `OwnerKeyErrorNeverRaised` states this.

=== FILE: Attrs.dfy ===
/** `ReleaseSerializer.get_attrs` (release.py lines 288-408): the per-release
    attributes assembled from the folds of the other modules. */
module Attrs {
  import opened Wrappers
  import opened Collections
  import opened Authors
  import opened Releases
  import opened CommitMetadata
  import opened ReleaseData

  /** The exceptions `get_attrs` can raise. */
  datatype Error =
    | HealthDataRequiresSnuba      // the explicit TypeError of line 307
    | NullGroupCount(releaseId: int)  // `sum` meeting a NULL count, line 394
    | MissingOwner(ownerId: int)      // `User.DoesNotExist` loading `i.owner`, line 320
    | OwnerKeyError(ownerId: int)     // KeyError on `owners[...]`, line 397

  /** The keyword arguments read by `get_attrs`; `project` is the project's id. */
  datatype Options = Options(
    project: Option<int>,
    environments: Option<seq<string>>,
    environment: Option<string>,
    withHealthData: bool,
    noSnuba: bool)

  /** A row of the `ReleaseProject` values query of lines 326-334. */
  datatype ProjectRelease = ProjectRelease(
    newGroups: Option<int>,
    releaseId: int,
    releaseVersion: string,
    projectSlug: string,
    projectName: string,
    projectId: int,
    projectPlatform: Option<string>)

  /** A health summary; only its `has_health_data` flag is read here. */
  datatype HealthRecord = HealthRecord(hasHealthData: bool)

  /** Whether a project entry has a `health_data` key, and its value. */
  datatype HealthField = NoHealthKey | HealthKey(record: Option<HealthRecord>)

  /** One entry of a release's `projects` list (lines 362-380). */
  datatype ProjectEntry = ProjectEntry(
    id: int,
    slug: string,
    name: string,
    newGroups: Option<int>,
    platform: Option<string>,
    platforms: seq<string>,
    health: HealthField,
    hasHealthData: bool)

  /** The health source: the overview of `get_release_health_data_overview`, or
      the set of (project, version) pairs `check_has_health_data` reports. */
  datatype Health = Overview(records: map<(int, string), HealthRecord>) | Presence(present: set<(int, string)>)

  /** The answers of every query, cache and backend `get_attrs` consults. */
  datatype Backend = Backend(
    tagRows: seq<SeenRow>,
    envSeenRows: seq<SeenRow>,
    envCountRows: seq<GroupRow>,
    projectCountRows: seq<GroupRow>,
    releaseCountRows: seq<GroupRow>,
    projectReleases: seq<ProjectRelease>,
    platforms: seq<(int, string)>,
    healthOverview: map<(int, string), HealthRecord>,
    healthPresent: set<(int, string)>,
    ownerTable: map<int, User>,
    authorTable: seq<CommitAuthor>,
    cache: map<CacheKey, Resolved>,
    userEmails: seq<UserEmail>,
    members: map<int, User>,
    commits: map<int, Commit>,
    deploys: map<int, Deploy>)

  /** The attributes of one release. */
  datatype ReleaseAttrs = ReleaseAttrs(
    owner: Option<User>,
    newGroups: int,
    projects: seq<ProjectEntry>,
    firstSeen: Option<int>,
    lastSeen: Option<int>,
    authors: seq<Resolved>,
    lastCommit: Option<Commit>,
    lastDeploy: Option<Deploy>)

  /** Lines 293-299: the environment filter; an empty list counts as none given. */
  function EffectiveEnvironments(environments: Option<seq<string>>, environment: Option<string>): (r: Option<seq<string>>)
    ensures r.None? <==> (environments.None? || |environments.value| == 0) && environment.None?
    ensures r.Some? ==> |r.value| > 0
    ensures environments.Some? && |environments.value| > 0 ==> r == environments
    ensures (environments.None? || |environments.value| == 0) && environment.Some? ==> r == Some([environment.value])
  {
    if environments.None? || |environments.value| == 0 then
      if environment.Some? then Some([environment.value]) else None
    else environments
  }

  /** The rows behind `first_seen`/`last_seen`: tag values without an
      environment filter, `ReleaseProjectEnvironment` rows with one. */
  function SeenRowsFor(envs: Option<seq<string>>, b: Backend): seq<SeenRow> {
    if envs.None? then b.tagRows else b.envSeenRows
  }

  /** `first_seen` and `last_seen` (lines 309-318). */
  function SeenFor(envs: Option<seq<string>>, b: Backend): (s: Seen)
    ensures IsEarliest(s.first, SeenRowsFor(envs, b))
    ensures IsLatest(s.last, SeenRowsFor(envs, b))
  {
    if envs.None? then SeenFromTags(b.tagRows) else SeenFromEnvironments(b.envSeenRows)
  }

  /** `issue_counts_by_release` (lines 247-257 and 280-284). */
  function CountsFor(project: Option<int>, envs: Option<seq<string>>, b: Backend): GroupCounts {
    if envs.Some? then CountsMerged(b.envCountRows)
    else match project
      case Some(p) => CountsForProject(p, b.projectCountRows)
      case None => CountsMerged(NonNull(b.releaseCountRows))
  }

  /** Lines 368-379: one project entry, with its platforms and health flags. */
  function ProjectEntryOf(pr: ProjectRelease, platformsByProject: map<int, seq<string>>, health: Health): (e: ProjectEntry)
    ensures e.id == pr.projectId && e.newGroups == pr.newGroups
    ensures e.platforms == Lookup(platformsByProject, pr.projectId)
    ensures health.Overview? ==>
      e.health == HealthKey(if (pr.projectId, pr.releaseVersion) in health.records then Some(health.records[(pr.projectId, pr.releaseVersion)]) else None)
    ensures health.Overview? ==>
      (e.hasHealthData <==> (pr.projectId, pr.releaseVersion) in health.records && health.records[(pr.projectId, pr.releaseVersion)].hasHealthData)
    ensures health.Presence? ==> e.health == NoHealthKey && (e.hasHealthData <==> (pr.projectId, pr.releaseVersion) in health.present)
  {
    var key := (pr.projectId, pr.releaseVersion);
    var platforms := Lookup(platformsByProject, pr.projectId);
    match health
    case Overview(records) =>
      var record := if key in records then Some(records[key]) else None;
      var flag := match record
        case Some(h) => h.hasHealthData
        case None => false;
      ProjectEntry(pr.projectId, pr.projectSlug, pr.projectName, pr.newGroups, pr.projectPlatform, platforms, HealthKey(record), flag)
    case Presence(present) =>
      ProjectEntry(pr.projectId, pr.projectSlug, pr.projectName, pr.newGroups, pr.projectPlatform, platforms, NoHealthKey, key in present)
  }

  /** Lines 343-359: where the health flags come from. */
  function HealthFor(opts: Options, b: Backend): Health {
    if opts.withHealthData then Overview(b.healthOverview)
    else if opts.noSnuba then Presence({})
    else Presence(b.healthPresent)
  }

  /** The `(release_id, entry)` pairs appended to `release_projects`, in row order. */
  function ProjectPairs(prs: seq<ProjectRelease>, platformsByProject: map<int, seq<string>>, health: Health): seq<(int, ProjectEntry)> {
    seq(|prs|, i requires 0 <= i < |prs| => (prs[i].releaseId, ProjectEntryOf(prs[i], platformsByProject, health)))
  }

  /** Lines 387-389: the entries of one project, in order. */
  function FilterProject(entries: seq<ProjectEntry>, p: int): (r: seq<ProjectEntry>)
    ensures forall e :: e in r ==> e.id == p
    ensures forall e :: e in entries && e.id == p ==> e in r
    ensures IsSubsequence(r, entries)
  {
    if |entries| == 0 then []
    else
      var init := entries[..|entries| - 1];
      var e := entries[|entries| - 1];
      var prev := FilterProject(init, p);
      assert entries == init + [e];
      if e.id == p then
        SubsequenceKeep(prev, init, e);
        prev + [e]
      else
        SubsequenceSkip(prev, init, e);
        prev
  }

  /** `x or 0` for a dict lookup that may be missing or hold `NULL`. */
  function OrZero(x: Option<Option<int>>): int {
    match x
    case Some(Some(n)) => n
    case _ => 0
  }

  /** Lines 386-394: `new_groups` of one release; `None` where Python's `sum`
      raises on a `NULL` count. */
  function NewGroups(counts: GroupCounts, item: Release): Option<int> {
    var d := CountsOf(counts, item.id);
    match item.forProjectId
    case Some(p) => Some(OrZero(Get(d, p)))
    case None => SumCounts(Values(d))
  }

  /** What `get_attrs` computes once for all releases. */
  datatype Shared = Shared(
    releaseProjects: map<int, seq<ProjectEntry>>,
    counts: GroupCounts,
    seen: Seen,
    owners: map<int, User>)

  function OwnerIds(items: seq<Release>): set<int> {
    set i | i in items && IsSetId(i.ownerId) :: i.ownerId.value
  }

  /** The release names an owner whose `User` row is missing. */
  predicate OwnerMissing(item: Release, ownerTable: map<int, User>) {
    IsSetId(item.ownerId) && item.ownerId.value !in ownerTable
  }

  /** Line 320: `i.owner` is loaded release by release in list order, and the
      first release whose owner row is missing raises `User.DoesNotExist`. */
  function FirstMissingOwner(items: seq<Release>, ownerTable: map<int, User>): (r: Option<int>)
    ensures r.None? <==> forall k :: 0 <= k < |items| ==> !OwnerMissing(items[k], ownerTable)
    ensures r.Some? ==> exists k :: 0 <= k < |items| && OwnerMissing(items[k], ownerTable) && items[k].ownerId == Some(r.value)
                                    && forall j :: 0 <= j < k ==> !OwnerMissing(items[j], ownerTable)
  {
    if |items| == 0 then None
    else if OwnerMissing(items[0], ownerTable) then Some(items[0].ownerId.value)
    else
      var r := FirstMissingOwner(items[1..], ownerTable);
      assert forall k :: 0 < k < |items| ==> items[k] == items[1..][k - 1];
      if r.Some? then
        var k :| 0 <= k < |items[1..]| && OwnerMissing(items[1..][k], ownerTable) && items[1..][k].ownerId == Some(r.value)
                 && forall j :: 0 <= j < k ==> !OwnerMissing(items[1..][j], ownerTable);
        assert OwnerMissing(items[k + 1], ownerTable) && items[k + 1].ownerId == Some(r.value);
        assert forall j :: 0 <= j < k + 1 ==> !OwnerMissing(items[j], ownerTable);
        r
      else
        r
  }

  /** Lines 386-389: the release's entries of `release_projects`, only those of
      `_for_project_id` when that is set. */
  function ProjectsOf(releaseProjects: map<int, seq<ProjectEntry>>, item: Release): seq<ProjectEntry> {
    var entries := Lookup(releaseProjects, item.id);
    match item.forProjectId
    case Some(p) => FilterProject(entries, p)
    case None => entries
  }

  /** Lines 384-407: the attributes of one release. */
  function AssembleRelease(item: Release, shared: Shared, commits: ReleaseCommits, deploy: Option<Deploy>): (r: Result<ReleaseAttrs, Error>)
    ensures r.Success? ==> r.value.projects == ProjectsOf(shared.releaseProjects, item)
    ensures r.Success? ==> r.value.firstSeen == MapGet(shared.seen.first, item.version)
    ensures r.Success? ==> r.value.lastSeen == MapGet(shared.seen.last, item.version)
    ensures r.Success? ==> Some(r.value.newGroups) == NewGroups(shared.counts, item)
    ensures r.Failure? ==> r.error != HealthDataRequiresSnuba
    ensures NewGroups(shared.counts, item).None? <==> r == Failure(NullGroupCount(item.id))
    ensures r.Failure? && r.error.OwnerKeyError? ==> IsSetId(item.ownerId) && item.ownerId.value !in shared.owners
    ensures r.Failure? ==> r.error.NullGroupCount? || r.error.OwnerKeyError?
    ensures r.Success? ==> r.value.owner == (if IsSetId(item.ownerId) then MapGet(shared.owners, item.ownerId.value) else None)
    ensures r.Success? ==> r.value.authors == commits.authors && r.value.lastCommit == commits.lastCommit && r.value.lastDeploy == deploy
  {
    var projects := ProjectsOf(shared.releaseProjects, item);
    match NewGroups(shared.counts, item)
    case None => Failure(NullGroupCount(item.id))
    case Some(n) =>
      if IsSetId(item.ownerId) && item.ownerId.value !in shared.owners then
        Failure(OwnerKeyError(item.ownerId.value))
      else
        var owner := if IsSetId(item.ownerId) then Some(shared.owners[item.ownerId.value]) else None;
        Success(ReleaseAttrs(
          owner, n, projects,
          MapGet(shared.seen.first, item.version), MapGet(shared.seen.last, item.version),
          commits.authors, commits.lastCommit, deploy))
  }

  /** Lines 383-408: every release in turn; the first error raised ends the loop. */
  function AssembleAll(items: seq<Release>, shared: Shared, commits: seq<ReleaseCommits>, deploys: seq<Option<Deploy>>): (r: Result<seq<ReleaseAttrs>, Error>)
    requires |commits| == |items| && |deploys| == |items|
    ensures r.Success? <==> forall k :: 0 <= k < |items| ==> AssembleRelease(items[k], shared, commits[k], deploys[k]).Success?
    ensures r.Success? ==> |r.value| == |items|
    ensures r.Success? ==> forall k :: 0 <= k < |items| ==> r.value[k] == AssembleRelease(items[k], shared, commits[k], deploys[k]).value
    ensures r.Failure? ==> exists k :: 0 <= k < |items| && AssembleRelease(items[k], shared, commits[k], deploys[k]) == Failure(r.error)
    ensures r.Failure? ==> r.error.NullGroupCount? || r.error.OwnerKeyError?
  {
    if |items| == 0 then Success([])
    else
      match AssembleRelease(items[0], shared, commits[0], deploys[0])
      case Failure(e) => Failure(e)
      case Success(a) =>
        match AssembleAll(items[1..], shared, commits[1..], deploys[1..])
        case Failure(e) => Failure(e)
        case Success(rest) => Success([a] + rest)
  }

  /** `get_attrs(item_list, user, **kwargs)`. */
  function GetAttrs(items: seq<Release>, opts: Options, b: Backend): (r: Result<seq<ReleaseAttrs>, Error>)
    ensures opts.withHealthData && opts.noSnuba ==> r == Failure(HealthDataRequiresSnuba)
    ensures r == Failure(HealthDataRequiresSnuba) ==> opts.withHealthData && opts.noSnuba
    ensures r.Success? ==> |r.value| == |items|
    ensures (r.Failure? && r.error.MissingOwner?)
        <==> !(opts.withHealthData && opts.noSnuba) && exists k :: 0 <= k < |items| && OwnerMissing(items[k], b.ownerTable)
  {
    if opts.withHealthData && opts.noSnuba then Failure(HealthDataRequiresSnuba)
    else match FirstMissingOwner(items, b.ownerTable)
      case Some(id) => Failure(MissingOwner(id))
      case None =>
        AssembleAll(
          items,
          SharedFor(items, opts, b),
          GetCommitMetadata(items, b.authorTable, b.cache, b.userEmails, b.members, b.commits),
          GetDeployMetadata(items, b.deploys))
  }

  /** Once every owner row has loaded, `owners` holds every release's owner. */
  lemma OwnersLoaded(items: seq<Release>, ownerTable: map<int, User>)
    requires FirstMissingOwner(items, ownerTable).None?
    ensures forall k :: 0 <= k < |items| && IsSetId(items[k].ownerId) ==> items[k].ownerId.value in FetchByIds(ownerTable, OwnerIds(items))
  {
    forall k | 0 <= k < |items| && IsSetId(items[k].ownerId)
      ensures items[k].ownerId.value in FetchByIds(ownerTable, OwnerIds(items))
    {
      assert items[k] in items;
      assert !OwnerMissing(items[k], ownerTable);
    }
  }

  /** With every owner present in `owners`, no release fails on the lookup. */
  lemma AssembleAllFindsOwners(items: seq<Release>, shared: Shared, commits: seq<ReleaseCommits>, deploys: seq<Option<Deploy>>)
    requires |commits| == |items| && |deploys| == |items|
    requires forall k :: 0 <= k < |items| && IsSetId(items[k].ownerId) ==> items[k].ownerId.value in shared.owners
    ensures AssembleAll(items, shared, commits, deploys).Failure? ==> !AssembleAll(items, shared, commits, deploys).error.OwnerKeyError?
  {
    var r := AssembleAll(items, shared, commits, deploys);
    if r.Failure? {
      var k :| 0 <= k < |items| && AssembleRelease(items[k], shared, commits[k], deploys[k]) == Failure(r.error);
    }
  }

  /** The `KeyError` of line 397 cannot happen: a missing owner has already
      raised at line 320. */
  lemma OwnerKeyErrorNeverRaised(items: seq<Release>, opts: Options, b: Backend)
    ensures GetAttrs(items, opts, b).Failure? ==> !GetAttrs(items, opts, b).error.OwnerKeyError?
  {
    if !(opts.withHealthData && opts.noSnuba) && FirstMissingOwner(items, b.ownerTable).None? {
      var shared := SharedFor(items, opts, b);
      var commits := GetCommitMetadata(items, b.authorTable, b.cache, b.userEmails, b.members, b.commits);
      var deploys := GetDeployMetadata(items, b.deploys);
      OwnersLoaded(items, b.ownerTable);
      AssembleAllFindsOwners(items, shared, commits, deploys);
      assert GetAttrs(items, opts, b) == AssembleAll(items, shared, commits, deploys);
    }
  }

  /** Reference for a release's `projects`: one entry per `ReleaseProject` row of
      the release, in row order, restricted to project `p` when one is given. */
  function EntriesFor(prs: seq<ProjectRelease>, platformsByProject: map<int, seq<string>>, health: Health, releaseId: int, p: Option<int>): seq<ProjectEntry> {
    if |prs| == 0 then []
    else
      (if prs[0].releaseId == releaseId && (p.None? || prs[0].projectId == p.value) then [ProjectEntryOf(prs[0], platformsByProject, health)] else [])
      + EntriesFor(prs[1..], platformsByProject, health, releaseId, p)
  }

  lemma {:induction false} FilterProjectConcat(xs: seq<ProjectEntry>, ys: seq<ProjectEntry>, p: int)
    ensures FilterProject(xs + ys, p) == FilterProject(xs, p) + FilterProject(ys, p)
    decreases |ys|
  {
    if |ys| == 0 {
      assert xs + ys == xs;
    } else {
      var init := ys[..|ys| - 1];
      FilterProjectConcat(xs, init, p);
      assert (xs + ys)[..|xs + ys| - 1] == xs + init;
    }
  }

  lemma {:induction false} FilterProjectSingle(x: ProjectEntry, p: int)
    ensures FilterProject([x], p) == if x.id == p then [x] else []
  {
    assert [x][..0] == [];
  }

  /** Grouping the pairs by release yields the release's rows' entries in order. */
  lemma {:induction false} GroupedPairsAreEntries(prs: seq<ProjectRelease>, platformsByProject: map<int, seq<string>>, health: Health, releaseId: int)
    ensures ValuesFor(ProjectPairs(prs, platformsByProject, health), releaseId) == EntriesFor(prs, platformsByProject, health, releaseId, None)
  {
    if |prs| > 0 {
      var pairs := ProjectPairs(prs, platformsByProject, health);
      assert pairs[1..] == ProjectPairs(prs[1..], platformsByProject, health);
      GroupedPairsAreEntries(prs[1..], platformsByProject, health, releaseId);
    }
  }

  /** Filtering a release's entries to one project keeps exactly that project's rows. */
  lemma {:induction false} FilteredEntriesAreProjectRows(prs: seq<ProjectRelease>, platformsByProject: map<int, seq<string>>, health: Health, releaseId: int, p: int)
    ensures FilterProject(EntriesFor(prs, platformsByProject, health, releaseId, None), p)
         == EntriesFor(prs, platformsByProject, health, releaseId, Some(p))
  {
    if |prs| > 0 {
      var e := ProjectEntryOf(prs[0], platformsByProject, health);
      var head := if prs[0].releaseId == releaseId then [e] else [];
      var rest := EntriesFor(prs[1..], platformsByProject, health, releaseId, None);
      FilterProjectConcat(head, rest, p);
      FilteredEntriesAreProjectRows(prs[1..], platformsByProject, health, releaseId, p);
      if prs[0].releaseId == releaseId {
        FilterProjectSingle(e, p);
      } else {
        assert FilterProject(head, p) == [];
      }
    }
  }

  /** The pieces `GetAttrs` assembles from, named for the lemmas below. */
  function SharedFor(items: seq<Release>, opts: Options, b: Backend): Shared {
    var envs := EffectiveEnvironments(opts.environments, opts.environment);
    var pairs := ProjectPairs(b.projectReleases, GroupBy(b.platforms), HealthFor(opts, b));
    Shared(GroupBy(pairs), CountsFor(opts.project, envs, b), SeenFor(envs, b), FetchByIds(b.ownerTable, OwnerIds(items)))
  }

  /** Only the flag combination can make an empty batch fail. */
  lemma EmptyBatchSucceeds(opts: Options, b: Backend)
    ensures GetAttrs([], opts, b).Success? <==> !(opts.withHealthData && opts.noSnuba)
  {
  }

  /** `get_attrs` returns its result exactly when the flags agree, every owner
      row loads and no release's `new_groups` sum meets a `NULL` count. */
  lemma GetAttrsSucceeds(items: seq<Release>, opts: Options, b: Backend)
    ensures GetAttrs(items, opts, b).Success? <==>
      && !(opts.withHealthData && opts.noSnuba)
      && (forall k :: 0 <= k < |items| ==> !OwnerMissing(items[k], b.ownerTable))
      && (forall k :: 0 <= k < |items| ==> NewGroups(SharedFor(items, opts, b).counts, items[k]).Some?)
  {
    if !(opts.withHealthData && opts.noSnuba) && FirstMissingOwner(items, b.ownerTable).None? {
      var shared := SharedFor(items, opts, b);
      var commits := GetCommitMetadata(items, b.authorTable, b.cache, b.userEmails, b.members, b.commits);
      var deploys := GetDeployMetadata(items, b.deploys);
      OwnersLoaded(items, b.ownerTable);
      assert GetAttrs(items, opts, b) == AssembleAll(items, shared, commits, deploys);
    }
  }

  /** A one-release batch whose owner row exists and which has no counted rows
      succeeds, so the lemmas below that start from a successful `get_attrs`
      result over a non-empty batch have instances. */
  lemma OneReleaseSucceeds()
    ensures
      var item := Release(1, "1.0", 3, [], None, None, Some(7), None);
      var b := Backend([], [], [], [], [], [], [], map[], {}, map[7 := User(7, "jane", "jane@example.com")],
                       [], map[], [], map[], map[], map[]);
      GetAttrs([item], Options(None, None, None, false, false), b).Success?
  {
    var item := Release(1, "1.0", 3, [], None, None, Some(7), None);
    var b := Backend([], [], [], [], [], [], [], map[], {}, map[7 := User(7, "jane", "jane@example.com")],
                     [], map[], [], map[], map[], map[]);
    var opts := Options(None, None, None, false, false);
    GetAttrsSucceeds([item], opts, b);
    assert !OwnerMissing(item, b.ownerTable);
    assert CountsOf(SharedFor([item], opts, b).counts, 1) == [];
  }

  lemma GetAttrsIsAssembly(items: seq<Release>, opts: Options, b: Backend, k: int)
    requires 0 <= k < |items| && GetAttrs(items, opts, b).Success?
    ensures
      var commits := GetCommitMetadata(items, b.authorTable, b.cache, b.userEmails, b.members, b.commits);
      var deploys := GetDeployMetadata(items, b.deploys);
      var a := AssembleRelease(items[k], SharedFor(items, opts, b), commits[k], deploys[k]);
      a.Success? && GetAttrs(items, opts, b).value[k] == a.value
  {
  }

  /** A release's `owner`, `authors`, `last_commit` and `last_deploy` in the
      result of `get_attrs` are its owner's row and its own commit and deploy
      metadata. */
  lemma ReleaseOwnerCommitsAndDeploy(items: seq<Release>, opts: Options, b: Backend, k: int)
    requires 0 <= k < |items| && GetAttrs(items, opts, b).Success?
    ensures
      var a := GetAttrs(items, opts, b).value[k];
      var commits := GetCommitMetadata(items, b.authorTable, b.cache, b.userEmails, b.members, b.commits)[k];
      && a.owner == (if IsSetId(items[k].ownerId) then Some(b.ownerTable[items[k].ownerId.value]) else None)
      && a.authors == commits.authors
      && a.lastCommit == commits.lastCommit
      && a.lastDeploy == GetDeployMetadata(items, b.deploys)[k]
  {
    GetAttrsIsAssembly(items, opts, b, k);
    OwnersLoaded(items, b.ownerTable);
    assert items[k] in items;
  }

  /** Grouping the `ReleaseProject` rows by release and selecting one release's
      entries yields that release's own rows in row order, only those of
      `_for_project_id` when that is set. */
  lemma ProjectsOfGroupedRows(prs: seq<ProjectRelease>, platformsByProject: map<int, seq<string>>, health: Health, item: Release)
    ensures ProjectsOf(GroupBy(ProjectPairs(prs, platformsByProject, health)), item)
         == EntriesFor(prs, platformsByProject, health, item.id, item.forProjectId)
  {
    var pairs := ProjectPairs(prs, platformsByProject, health);
    GroupByCollectsInOrder(pairs, item.id);
    GroupedPairsAreEntries(prs, platformsByProject, health, item.id);
    if item.forProjectId.Some? {
      FilteredEntriesAreProjectRows(prs, platformsByProject, health, item.id, item.forProjectId.value);
    }
  }

  /** A release's `projects` in the result of `get_attrs` are its own rows. */
  lemma ReleaseProjectsAreItsRows(items: seq<Release>, opts: Options, b: Backend, k: int)
    requires 0 <= k < |items| && GetAttrs(items, opts, b).Success?
    ensures GetAttrs(items, opts, b).value[k].projects
         == EntriesFor(b.projectReleases, GroupBy(b.platforms), HealthFor(opts, b), items[k].id, items[k].forProjectId)
  {
    GetAttrsIsAssembly(items, opts, b, k);
    ProjectsOfGroupedRows(b.projectReleases, GroupBy(b.platforms), HealthFor(opts, b), items[k]);
  }

  /** Without a given project, `new_groups` is the project's last count or 0
      for a project-bound release, and otherwise the total of the release's rows
      (`None` when one of them is `NULL`). */
  lemma NewGroupsFromMergedRows(rows: seq<GroupRow>, item: Release)
    ensures item.forProjectId.Some? ==>
      NewGroups(CountsMerged(rows), item) == Some(OrZero(LastCount(rows, item.id, item.forProjectId.value)))
    ensures item.forProjectId.None? ==>
      NewGroups(CountsMerged(rows), item) == SumCounts(LastCounts(rows, item.id))
    ensures item.forProjectId.None? && DistinctPairs(rows) ==>
      NewGroups(CountsMerged(rows), item) == RowsTotal(rows, item.id)
  {
    if item.forProjectId.Some? {
      CountsMergedIsLastRow(rows, item.id, item.forProjectId.value);
    } else {
      MergedValuesAreLastCounts(rows, item.id);
      if DistinctPairs(rows) {
        MergedSumIsRowsTotal(rows, item.id);
      }
    }
  }

  /** With an environment filter a (release, project) pair has one row per
      environment, and the merge keeps the last one: two environments with 3
      and 5 new issues give `new_groups == 5`, not their total 8. */
  lemma RepeatedPairKeepsLastCount()
    ensures
      var rows := [GroupRow(10, 1, Some(3)), GroupRow(10, 1, Some(5))];
      var item := Release(1, "1.0", 7, [], None, None, None, None);
      NewGroups(CountsMerged(rows), item) == Some(5) && RowsTotal(rows, 1) == Some(8)
  {
    var rows := [GroupRow(10, 1, Some(3)), GroupRow(10, 1, Some(5))];
    assert rows[..1] == [GroupRow(10, 1, Some(3))];
    assert rows[..1][..0] == [];
    var r1 := rows[..1];
    assert r1[..0] == [];
    assert CountsMerged(r1) == map[1 := [(10, Some(3))]];
    assert Put([(10, Some(3))], 10, Some(5)) == [(10, Some(5))];
    assert rows[..|rows| - 1] == r1;
    var d := CountsOf(CountsMerged(rows), 1);
    assert d == [(10, Some(5))];
    assert Values(d) == [Some(5)];
    assert [Some(5)][..0] == [];
  }

  /** With a project given, a project-bound release counts only that project's
      last row, 0 for any other project; an unbound release takes the last
      row's count, and a `NULL` there makes `sum` raise. */
  lemma NewGroupsFromProjectRows(projectId: int, rows: seq<GroupRow>, item: Release)
    ensures item.forProjectId.Some? ==>
      NewGroups(CountsForProject(projectId, rows), item)
        == Some(if item.forProjectId.value == projectId then OrZero(LastReleaseCount(rows, item.id)) else 0)
    ensures item.forProjectId.None? ==>
      NewGroups(CountsForProject(projectId, rows), item)
        == match LastReleaseCount(rows, item.id)
           case None => Some(0)
           case Some(v) => v
  {
    CountsForProjectIsLastRow(projectId, rows, item.id);
    match LastReleaseCount(rows, item.id)
    case None =>
    case Some(v) =>
      var d := [(projectId, v)];
      assert d[1..] == [];
      assert Values(d) == [v];
      assert [v][..0] == [];
      assert SumCounts([v]) == AddCount(Some(0), v);
  }

  /** `first_seen` and `last_seen` of a release are the least first sighting and
      greatest last sighting among its version's rows, and absent without rows. */
  lemma FirstAndLastSeenOfRelease(items: seq<Release>, opts: Options, b: Backend, k: int)
    requires 0 <= k < |items| && GetAttrs(items, opts, b).Success?
    ensures
      var rows := SeenRowsFor(EffectiveEnvironments(opts.environments, opts.environment), b);
      var a := GetAttrs(items, opts, b).value[k];
      EarliestOf(a.firstSeen, rows, items[k].version) && LatestOf(a.lastSeen, rows, items[k].version)
  {
    var envs := EffectiveEnvironments(opts.environments, opts.environment);
    var seen := SharedFor(items, opts, b).seen;
    GetAttrsIsAssembly(items, opts, b, k);
    assert seen == SeenFor(envs, b);
    EarliestEntry(seen.first, SeenRowsFor(envs, b), items[k].version);
    LatestEntry(seen.last, SeenRowsFor(envs, b), items[k].version);
  }

  lemma {:induction false} EntriesForComeFromRows(prs: seq<ProjectRelease>, platformsByProject: map<int, seq<string>>, health: Health, releaseId: int, p: Option<int>, e: ProjectEntry)
    requires e in EntriesFor(prs, platformsByProject, health, releaseId, p)
    ensures exists i :: 0 <= i < |prs| && prs[i].releaseId == releaseId && e == ProjectEntryOf(prs[i], platformsByProject, health)
  {
    var head := if prs[0].releaseId == releaseId && (p.None? || prs[0].projectId == p.value) then [ProjectEntryOf(prs[0], platformsByProject, health)] else [];
    var rest := EntriesFor(prs[1..], platformsByProject, health, releaseId, p);
    if e !in head {
      assert e in rest;
      EntriesForComeFromRows(prs[1..], platformsByProject, health, releaseId, p, e);
      var i :| 0 <= i < |prs[1..]| && prs[1..][i].releaseId == releaseId && e == ProjectEntryOf(prs[1..][i], platformsByProject, health);
      assert prs[i + 1] == prs[1..][i];
    }
  }

  /** With `no_snuba` and no health data requested, no project reports health data. */
  lemma NoSnubaReportsNoHealthData(items: seq<Release>, opts: Options, b: Backend, k: int)
    requires 0 <= k < |items| && GetAttrs(items, opts, b).Success?
    requires !opts.withHealthData && opts.noSnuba
    ensures forall e :: e in GetAttrs(items, opts, b).value[k].projects ==> !e.hasHealthData && e.health == NoHealthKey
  {
    var projects := GetAttrs(items, opts, b).value[k].projects;
    ReleaseProjectsAreItsRows(items, opts, b, k);
    assert HealthFor(opts, b) == Presence({});
    forall e | e in projects
      ensures !e.hasHealthData && e.health == NoHealthKey
    {
      NoPresenceNoHealthData(b.projectReleases, GroupBy(b.platforms), items[k].id, items[k].forProjectId, e);
    }
  }

  /** Entries built without snuba never report health data. */
  lemma {:induction false} NoPresenceNoHealthData(prs: seq<ProjectRelease>, platformsByProject: map<int, seq<string>>, releaseId: int, p: Option<int>, e: ProjectEntry)
    requires e in EntriesFor(prs, platformsByProject, Presence({}), releaseId, p)
    ensures !e.hasHealthData && e.health == NoHealthKey
  {
    EntriesForComeFromRows(prs, platformsByProject, Presence({}), releaseId, p, e);
  }

  /** `e` is the entry of row `pr`, carrying the overview record for the row's
      (project, version) and that record's flag, `False` without one. */
  ghost predicate ReportsOverview(e: ProjectEntry, pr: ProjectRelease, records: map<(int, string), HealthRecord>) {
    var key := (pr.projectId, pr.releaseVersion);
    && e.id == pr.projectId
    && e.health == HealthKey(MapGet(records, key))
    && (e.hasHealthData <==> key in records && records[key].hasHealthData)
  }

  /** An entry built against the overview reports its row's record. */
  lemma {:induction false} OverviewEntryReports(prs: seq<ProjectRelease>, platformsByProject: map<int, seq<string>>, records: map<(int, string), HealthRecord>, releaseId: int, p: Option<int>, e: ProjectEntry)
    requires e in EntriesFor(prs, platformsByProject, Overview(records), releaseId, p)
    ensures exists i :: 0 <= i < |prs| && prs[i].releaseId == releaseId && ReportsOverview(e, prs[i], records)
  {
    EntriesForComeFromRows(prs, platformsByProject, Overview(records), releaseId, p, e);
    var i :| 0 <= i < |prs| && prs[i].releaseId == releaseId && e == ProjectEntryOf(prs[i], platformsByProject, Overview(records));
    assert ReportsOverview(e, prs[i], records);
  }

  /** With health data requested, each project entry carries its overview record
      (or `None`) and reports that record's flag, `False` without a record. */
  lemma HealthFlagsFollowOverview(items: seq<Release>, opts: Options, b: Backend, k: int)
    requires 0 <= k < |items| && GetAttrs(items, opts, b).Success?
    requires opts.withHealthData
    ensures forall e :: e in GetAttrs(items, opts, b).value[k].projects ==>
      exists i :: 0 <= i < |b.projectReleases| && b.projectReleases[i].releaseId == items[k].id
        && ReportsOverview(e, b.projectReleases[i], b.healthOverview)
  {
    var projects := GetAttrs(items, opts, b).value[k].projects;
    ReleaseProjectsAreItsRows(items, opts, b, k);
    assert HealthFor(opts, b) == Overview(b.healthOverview);
    forall e | e in projects
      ensures exists i :: 0 <= i < |b.projectReleases| && b.projectReleases[i].releaseId == items[k].id
                          && ReportsOverview(e, b.projectReleases[i], b.healthOverview)
    {
      OverviewEntryReports(b.projectReleases, GroupBy(b.platforms), b.healthOverview, items[k].id, items[k].forProjectId, e);
    }
  }
}

=== FILE: Authors.dfy ===
/** Commit-author resolution: `_user_to_author_cache_key` and
    `get_users_for_authors` (release.py lines 50-120). Every query and cache
    read is an input; the cache write-back is an output. */
module Authors {
  import opened Wrappers
  import opened Text
  import opened Collections

  /** A `CommitAuthor` row. */
  datatype CommitAuthor = CommitAuthor(id: int, name: string, email: string)

  /** A serialized, active user who is a member of the organization. */
  datatype User = User(id: int, name: string, email: string)

  /** What an author resolves to: a Sentry user, or the `{"name", "email"}` record. */
  datatype Resolved = Member(user: User) | NonMember(name: string, email: string) {

    /** The `"email"` entry of the resolved dict. */
    function Email(): string {
      match this
      case Member(u) => u.email
      case NonMember(_, e) => e
    }
  }

  /** The md5 digest of a text, kept symbolic: distinct texts have distinct digests. */
  datatype Digest = Md5(text: string)

  /** `"get_users_for_authors:{organization_id}:{hash}"`. */
  datatype CacheKey = AuthorKey(organizationId: int, emailHash: Digest)

  /** A `UserEmail` row: an address registered by a user. */
  datatype UserEmail = UserEmail(id: int, userId: int, email: string)

  /** The returned `author_id => user` dict and the entries handed to `cache.set_many`. */
  datatype AuthorLookup = AuthorLookup(results: map<int, Resolved>, cacheWrites: map<CacheKey, Resolved>)

  /** `_user_to_author_cache_key(organization_id, author)`. */
  function AuthorCacheKey(org: int, a: CommitAuthor): CacheKey {
    AuthorKey(org, Md5(Lower(a.email)))
  }

  /** Two authors share a cache key exactly when they are looked up for the same
      organization and their e-mail addresses differ at most in letter case. */
  lemma CacheKeyIgnoresCase(org: int, org': int, a: CommitAuthor, b: CommitAuthor)
    ensures AuthorCacheKey(org, a) == AuthorCacheKey(org', b)
        <==> org == org' && EqualsIgnoringCase(a.email, b.email)
  {
    LowerAgreesIffEqualsIgnoringCase(a.email, b.email);
  }

  /** No two listed authors share an id (ids are primary keys). */
  ghost predicate DistinctIds(authors: seq<CommitAuthor>) {
    forall a, b :: a in authors && b in authors && a.id == b.id ==> a == b
  }

  /** No two listed authors share a cache key. */
  ghost predicate DistinctKeys(org: int, authors: seq<CommitAuthor>) {
    forall a, b :: a in authors && b in authors && AuthorCacheKey(org, a) == AuthorCacheKey(org, b) ==> a == b
  }

  function Ids(authors: seq<CommitAuthor>): set<int> {
    set a | a in authors :: a.id
  }

  function KeysOf(org: int, authors: seq<CommitAuthor>): set<CacheKey> {
    set a | a in authors :: AuthorCacheKey(org, a)
  }

  /** `cache.get_many(keys)`: the cached entries among the requested keys. */
  function GetMany(cache: map<CacheKey, Resolved>, keys: set<CacheKey>): map<CacheKey, Resolved> {
    map k | k in cache && k in keys :: cache[k]
  }

  /** The results filled from cache hits, in author order (lines 75-80). */
  function CachedResults(org: int, fetched: map<CacheKey, Resolved>, authors: seq<CommitAuthor>): (hits: map<int, Resolved>)
    ensures hits.Keys == set a | a in authors && AuthorCacheKey(org, a) in fetched :: a.id
  {
    if |authors| == 0 then map[]
    else
      var init := authors[..|authors| - 1];
      var a := authors[|authors| - 1];
      var hits := CachedResults(org, fetched, init);
      var k := AuthorCacheKey(org, a);
      assert forall b :: b in authors <==> b in init || b == a by {
        assert authors == init + [a];
      }
      if k in fetched then hits[a.id := fetched[k]] else hits
  }

  /** The authors whose key was not fetched, in author order (lines 74-78). */
  function Missed(org: int, fetched: map<CacheKey, Resolved>, authors: seq<CommitAuthor>): (missed: seq<CommitAuthor>)
    ensures forall a :: a in missed <==> a in authors && AuthorCacheKey(org, a) !in fetched
    ensures IsSubsequence(missed, authors)
  {
    if |authors| == 0 then []
    else
      var init := authors[..|authors| - 1];
      var a := authors[|authors| - 1];
      var missed := Missed(org, fetched, init);
      assert authors == init + [a];
      if AuthorCacheKey(org, a) in fetched then
        SubsequenceSkip(missed, init, a);
        missed
      else
        SubsequenceKeep(missed, init, a);
        missed + [a]
  }

  /** The lower-cased addresses of the missed authors. */
  function LowerEmails(authors: seq<CommitAuthor>): set<string> {
    set a | a in authors :: Lower(a.email)
  }

  /** `UserEmail.objects.filter(in_iexact("email", ...))`, keeping the table's id order. */
  function MatchingEmails(table: seq<UserEmail>, emails: set<string>): (rows: seq<UserEmail>)
    ensures forall r :: r in rows <==> r in table && Lower(r.email) in emails
  {
    if |table| == 0 then []
    else (if Lower(table[0].email) in emails then [table[0]] else []) + MatchingEmails(table[1..], emails)
  }

  function UserIds(rows: seq<UserEmail>): set<int> {
    set r | r in rows :: r.userId
  }

  /** `users_by_id`: the organization's active members among the rows' user ids. */
  function UsersById(rows: seq<UserEmail>, members: map<int, User>): map<int, User> {
    map id | id in members && id in UserIds(rows) :: members[id]
  }

  /** `users_by_email` (lines 100-109): one pass over the rows in order; an address
      already mapped is never overwritten, and a row whose user is not in
      `usersById` is skipped. */
  function UsersByEmail(rows: seq<UserEmail>, usersById: map<int, User>): (m: map<string, User>)
    ensures forall e :: e in m ==> m[e] in usersById.Values
  {
    if |rows| == 0 then map[]
    else
      var m := UsersByEmail(rows[..|rows| - 1], usersById);
      var row := rows[|rows| - 1];
      var e := Lower(row.email);
      if e !in m && row.userId in usersById then m[e := usersById[row.userId]] else m
  }

  /** Reference for the first-wins rule: the user of the earliest row whose
      address lower-cases to `e` and whose user is in `users`. */
  function FirstUser(rows: seq<UserEmail>, users: map<int, User>, e: string): Option<User> {
    if |rows| == 0 then None
    else if Lower(rows[0].email) == e && rows[0].userId in users then Some(users[rows[0].userId])
    else FirstUser(rows[1..], users, e)
  }

  lemma {:induction false} FirstUserAppend(rows: seq<UserEmail>, r: UserEmail, users: map<int, User>, e: string)
    ensures FirstUser(rows + [r], users, e)
         == if FirstUser(rows, users, e).Some? then FirstUser(rows, users, e)
            else if Lower(r.email) == e && r.userId in users then Some(users[r.userId])
            else None
  {
    if |rows| == 0 {
      assert [r][1..] == [];
    } else {
      assert (rows + [r])[1..] == rows[1..] + [r];
      FirstUserAppend(rows[1..], r, users, e);
    }
  }

  /** The e-mail map holds, for every address, the first eligible row's user. */
  lemma {:induction false} UsersByEmailIsFirstWins(rows: seq<UserEmail>, users: map<int, User>, e: string)
    ensures e in UsersByEmail(rows, users) <==> FirstUser(rows, users, e).Some?
    ensures e in UsersByEmail(rows, users) ==> UsersByEmail(rows, users)[e] == FirstUser(rows, users, e).value
  {
    if |rows| > 0 {
      var init := rows[..|rows| - 1];
      UsersByEmailIsFirstWins(init, users, e);
      assert rows == init + [rows[|rows| - 1]];
      FirstUserAppend(init, rows[|rows| - 1], users, e);
    }
  }

  /** Later rows never overwrite: extending the rows only adds addresses. */
  lemma {:induction false} UsersByEmailGrows(rows: seq<UserEmail>, more: seq<UserEmail>, users: map<int, User>, e: string)
    requires e in UsersByEmail(rows, users)
    ensures e in UsersByEmail(rows + more, users)
    ensures UsersByEmail(rows + more, users)[e] == UsersByEmail(rows, users)[e]
    decreases |more|
  {
    if |more| == 0 {
      assert rows + more == rows;
    } else {
      var init := more[..|more| - 1];
      UsersByEmailGrows(rows, init, users, e);
      assert rows + more == (rows + init) + [more[|more| - 1]];
      assert (rows + more)[..|rows + more| - 1] == rows + init;
    }
  }

  /** Restricting `users` to the rows' own user ids changes no answer. */
  lemma {:induction false} FirstUserRestricted(rows: seq<UserEmail>, members: map<int, User>, sub: map<int, User>, e: string)
    requires forall r :: r in rows ==> (r.userId in sub <==> r.userId in members)
    requires forall id :: id in sub ==> id in members && sub[id] == members[id]
    ensures FirstUser(rows, sub, e) == FirstUser(rows, members, e)
  {
    if |rows| > 0 {
      assert rows[0] in rows;
      FirstUserRestricted(rows[1..], members, sub, e);
    }
  }

  /** The `in_iexact` pre-filter changes no answer for an address it keeps. */
  lemma {:induction false} FirstUserFiltered(table: seq<UserEmail>, emails: set<string>, users: map<int, User>, e: string)
    requires e in emails
    ensures FirstUser(MatchingEmails(table, emails), users, e) == FirstUser(table, users, e)
  {
    if |table| > 0 {
      FirstUserFiltered(table[1..], emails, users, e);
      var rest := MatchingEmails(table[1..], emails);
      var head := table[0];
      if Lower(head.email) in emails {
        assert MatchingEmails(table, emails) == [head] + rest;
        assert ([head] + rest)[0] == head;
        assert ([head] + rest)[1..] == rest;
      } else {
        assert MatchingEmails(table, emails) == rest;
        assert Lower(head.email) != e;
      }
    }
  }

  /** What a missed author resolves to (lines 112-114). */
  function ResolveMiss(byEmail: map<string, User>, a: CommitAuthor): Resolved {
    var e := Lower(a.email);
    if e in byEmail then Member(byEmail[e]) else NonMember(a.name, a.email)
  }

  /** The loop over missed authors (lines 110-115), starting from the cached results. */
  function ResolveMissed(org: int, byEmail: map<string, User>, base: map<int, Resolved>, missed: seq<CommitAuthor>): (r: AuthorLookup)
    ensures r.results.Keys == base.Keys + Ids(missed)
    ensures r.cacheWrites.Keys == KeysOf(org, missed)
  {
    if |missed| == 0 then AuthorLookup(base, map[])
    else
      var init := missed[..|missed| - 1];
      var a := missed[|missed| - 1];
      var prev := ResolveMissed(org, byEmail, base, init);
      var v := ResolveMiss(byEmail, a);
      assert forall b :: b in missed <==> b in init || b == a by {
        assert missed == init + [a];
      }
      AuthorLookup(prev.results[a.id := v], prev.cacheWrites[AuthorCacheKey(org, a) := v])
  }

  /** Lines 70-82: the cache hits already placed in the results, and the missed
      authors. When nothing at all was fetched every author is missed, which is
      what the per-author split would give as well. */
  function SplitByCache(org: int, cache: map<CacheKey, Resolved>, authors: seq<CommitAuthor>): (s: (map<int, Resolved>, seq<CommitAuthor>))
    ensures forall a :: a in s.1 <==> a in authors && AuthorCacheKey(org, a) !in cache
    ensures s.0.Keys == set a | a in authors && AuthorCacheKey(org, a) in cache :: a.id
  {
    var fetched := GetMany(cache, KeysOf(org, authors));
    assert forall a :: a in authors ==> (AuthorCacheKey(org, a) in fetched <==> AuthorCacheKey(org, a) in cache);
    if |fetched| > 0 then
      (CachedResults(org, fetched, authors), Missed(org, fetched, authors))
    else
      assert forall a :: a in authors ==> AuthorCacheKey(org, a) !in fetched;
      (map[], authors)
  }

  /** `get_users_for_authors(organization_id, authors)`. `cache` is the cache's
      content, `userEmails` the `UserEmail` table in id order, `members` the
      organization's active users by id. */
  function GetUsersForAuthors(
    org: int,
    authors: seq<CommitAuthor>,
    cache: map<CacheKey, Resolved>,
    userEmails: seq<UserEmail>,
    members: map<int, User>): (r: AuthorLookup)
    ensures r.results.Keys == Ids(authors)
    ensures r.cacheWrites.Keys == set a | a in authors && AuthorCacheKey(org, a) !in cache :: AuthorCacheKey(org, a)
  {
    var (hits, missed) := SplitByCache(org, cache, authors);
    SplitCovers(org, cache, authors, hits, missed);
    if |missed| == 0 then
      AuthorLookup(hits, map[])
    else
      var rows := MatchingEmails(userEmails, LowerEmails(missed));
      var byEmail := UsersByEmail(rows, UsersById(rows, members));
      ResolveMissed(org, byEmail, hits, missed)
  }

  lemma SplitCovers(org: int, cache: map<CacheKey, Resolved>, authors: seq<CommitAuthor>, hits: map<int, Resolved>, missed: seq<CommitAuthor>)
    requires forall a :: a in missed <==> a in authors && AuthorCacheKey(org, a) !in cache
    requires hits.Keys == set a | a in authors && AuthorCacheKey(org, a) in cache :: a.id
    ensures hits.Keys + Ids(missed) == Ids(authors)
    ensures KeysOf(org, missed) == set a | a in authors && AuthorCacheKey(org, a) !in cache :: AuthorCacheKey(org, a)
    ensures |missed| == 0 ==> Ids(missed) == {} && KeysOf(org, missed) == {}
  {
    if |missed| == 0 {
      assert Ids(missed) == {};
    }
  }

  /** Reference for one author's entry: the cached value on a hit; otherwise the
      first active member of the organization registered under the author's
      address, ignoring case, or else the author's own name and address. */
  function ExpectedResolution(
    org: int,
    cache: map<CacheKey, Resolved>,
    userEmails: seq<UserEmail>,
    members: map<int, User>,
    a: CommitAuthor): Resolved
  {
    var k := AuthorCacheKey(org, a);
    if k in cache then cache[k]
    else match FirstUser(userEmails, members, Lower(a.email))
      case Some(u) => Member(u)
      case None => NonMember(a.name, a.email)
  }

  lemma {:induction false} CachedResultsValue(org: int, fetched: map<CacheKey, Resolved>, authors: seq<CommitAuthor>, a: CommitAuthor)
    requires DistinctIds(authors) && a in authors && AuthorCacheKey(org, a) in fetched
    ensures CachedResults(org, fetched, authors)[a.id] == fetched[AuthorCacheKey(org, a)]
  {
    var init := authors[..|authors| - 1];
    var last := authors[|authors| - 1];
    assert authors == init + [last];
    if a != last {
      assert a in init;
      CachedResultsValue(org, fetched, init, a);
    }
  }

  lemma SplitHitValue(org: int, cache: map<CacheKey, Resolved>, authors: seq<CommitAuthor>, a: CommitAuthor)
    requires DistinctIds(authors) && a in authors && AuthorCacheKey(org, a) in cache
    ensures SplitByCache(org, cache, authors).0[a.id] == cache[AuthorCacheKey(org, a)]
  {
    var fetched := GetMany(cache, KeysOf(org, authors));
    assert AuthorCacheKey(org, a) in fetched;
    CachedResultsValue(org, fetched, authors, a);
  }

  /** Entries of authors that were not missed keep their cached value. */
  lemma {:induction false} ResolveMissedKeepsBase(org: int, byEmail: map<string, User>, base: map<int, Resolved>, missed: seq<CommitAuthor>, id: int)
    requires id in base && id !in Ids(missed)
    ensures ResolveMissed(org, byEmail, base, missed).results[id] == base[id]
  {
    if |missed| > 0 {
      var init := missed[..|missed| - 1];
      assert missed == init + [missed[|missed| - 1]];
      assert Ids(init) <= Ids(missed);
      ResolveMissedKeepsBase(org, byEmail, base, init, id);
    }
  }

  /** Each missed author's entry is its own resolution. */
  lemma {:induction false} ResolveMissedResult(org: int, byEmail: map<string, User>, base: map<int, Resolved>, missed: seq<CommitAuthor>, a: CommitAuthor)
    requires DistinctIds(missed) && a in missed
    ensures ResolveMissed(org, byEmail, base, missed).results[a.id] == ResolveMiss(byEmail, a)
  {
    var init := missed[..|missed| - 1];
    var last := missed[|missed| - 1];
    assert missed == init + [last];
    if a != last {
      assert a in init;
      ResolveMissedResult(org, byEmail, base, init, a);
    }
  }

  /** Each missed author's key is written with its own resolution. */
  lemma ResolveMissedWrite(org: int, byEmail: map<string, User>, base: map<int, Resolved>, missed: seq<CommitAuthor>, a: CommitAuthor)
    requires DistinctKeys(org, missed) && a in missed
    ensures ResolveMissed(org, byEmail, base, missed).cacheWrites[AuthorCacheKey(org, a)] == ResolveMiss(byEmail, a)
  {
    var k := AuthorCacheKey(org, a);
    assert k in KeysOf(org, missed);
    ResolveMissedWriteIsLast(org, byEmail, base, missed, k);
  }

  /** A missed author is resolved as if the whole `UserEmail` table had been
      scanned against all active members: the pre-filter and the id restriction
      change nothing. */
  lemma MissResolvesAgainstWholeTable(userEmails: seq<UserEmail>, members: map<int, User>, missed: seq<CommitAuthor>, a: CommitAuthor)
    requires a in missed
    ensures
      var rows := MatchingEmails(userEmails, LowerEmails(missed));
      var byEmail := UsersByEmail(rows, UsersById(rows, members));
      ResolveMiss(byEmail, a)
        == match FirstUser(userEmails, members, Lower(a.email))
           case Some(u) => Member(u)
           case None => NonMember(a.name, a.email)
  {
    var e := Lower(a.email);
    var rows := MatchingEmails(userEmails, LowerEmails(missed));
    var sub := UsersById(rows, members);
    UsersByEmailIsFirstWins(rows, sub, e);
    assert forall r :: r in rows ==> r.userId in UserIds(rows);
    FirstUserRestricted(rows, members, sub, e);
    FirstUserFiltered(userEmails, LowerEmails(missed), members, e);
  }

  /** Every author gets the entry the reference prescribes: the cached value on a
      hit, else the first matching member, else `{"name", "email"}`. */
  lemma GetUsersForAuthorsResolvesEachAuthor(
    org: int,
    authors: seq<CommitAuthor>,
    cache: map<CacheKey, Resolved>,
    userEmails: seq<UserEmail>,
    members: map<int, User>,
    a: CommitAuthor)
    requires DistinctIds(authors) && a in authors
    ensures GetUsersForAuthors(org, authors, cache, userEmails, members).results[a.id]
         == ExpectedResolution(org, cache, userEmails, members, a)
  {
    var (hits, missed) := SplitByCache(org, cache, authors);
    SplitCovers(org, cache, authors, hits, missed);
    if AuthorCacheKey(org, a) in cache {
      SplitHitValue(org, cache, authors, a);
      if |missed| > 0 {
        var rows := MatchingEmails(userEmails, LowerEmails(missed));
        var byEmail := UsersByEmail(rows, UsersById(rows, members));
        assert a.id !in Ids(missed);
        ResolveMissedKeepsBase(org, byEmail, hits, missed, a.id);
      }
    } else {
      assert a in missed;
      var rows := MatchingEmails(userEmails, LowerEmails(missed));
      var byEmail := UsersByEmail(rows, UsersById(rows, members));
      ResolveMissedResult(org, byEmail, hits, missed, a);
      MissResolvesAgainstWholeTable(userEmails, members, missed, a);
    }
  }

  /** What is written back for a missed author is what was returned for it, as
      long as no two authors share a cache key. */
  lemma CacheWritesMatchResults(
    org: int,
    authors: seq<CommitAuthor>,
    cache: map<CacheKey, Resolved>,
    userEmails: seq<UserEmail>,
    members: map<int, User>,
    a: CommitAuthor)
    requires DistinctIds(authors) && DistinctKeys(org, authors)
    requires a in authors && AuthorCacheKey(org, a) !in cache
    ensures
      var r := GetUsersForAuthors(org, authors, cache, userEmails, members);
      r.cacheWrites[AuthorCacheKey(org, a)] == r.results[a.id]
  {
    var (hits, missed) := SplitByCache(org, cache, authors);
    assert a in missed;
    var rows := MatchingEmails(userEmails, LowerEmails(missed));
    var byEmail := UsersByEmail(rows, UsersById(rows, members));
    ResolveMissedResult(org, byEmail, hits, missed, a);
    ResolveMissedWrite(org, byEmail, hits, missed, a);
  }

  /** Reference: the last of `authors` whose cache key is `k`. */
  function LastWithKey(org: int, authors: seq<CommitAuthor>, k: CacheKey): (r: Option<CommitAuthor>)
    ensures r.Some? ==> r.value in authors && AuthorCacheKey(org, r.value) == k
    ensures r.None? <==> k !in KeysOf(org, authors)
  {
    if |authors| == 0 then None
    else
      var init := authors[..|authors| - 1];
      var a := authors[|authors| - 1];
      assert authors == init + [a];
      assert KeysOf(org, authors) == KeysOf(org, init) + {AuthorCacheKey(org, a)};
      if AuthorCacheKey(org, a) == k then Some(a) else LastWithKey(org, init, k)
  }

  /** Skipping authors whose key was fetched keeps the last author of an
      unfetched key. */
  lemma {:induction false} MissedKeepsLastWithKey(org: int, fetched: map<CacheKey, Resolved>, authors: seq<CommitAuthor>, k: CacheKey)
    requires k !in fetched
    ensures LastWithKey(org, Missed(org, fetched, authors), k) == LastWithKey(org, authors, k)
  {
    if |authors| > 0 {
      var init := authors[..|authors| - 1];
      var a := authors[|authors| - 1];
      MissedKeepsLastWithKey(org, fetched, init, k);
      if AuthorCacheKey(org, a) !in fetched {
        var m := Missed(org, fetched, init) + [a];
        assert m[..|m| - 1] == Missed(org, fetched, init);
      }
    }
  }

  lemma SplitKeepsLastWithKey(org: int, cache: map<CacheKey, Resolved>, authors: seq<CommitAuthor>, k: CacheKey)
    requires k !in cache
    ensures LastWithKey(org, SplitByCache(org, cache, authors).1, k) == LastWithKey(org, authors, k)
  {
    var fetched := GetMany(cache, KeysOf(org, authors));
    if |fetched| > 0 {
      MissedKeepsLastWithKey(org, fetched, authors, k);
    }
  }

  /** The write for a key holds the resolution of the last missed author with
      that key: later authors overwrite earlier ones (line 114). */
  lemma {:induction false} ResolveMissedWriteIsLast(org: int, byEmail: map<string, User>, base: map<int, Resolved>, missed: seq<CommitAuthor>, k: CacheKey)
    requires k in KeysOf(org, missed)
    ensures LastWithKey(org, missed, k).Some?
    ensures ResolveMissed(org, byEmail, base, missed).cacheWrites[k] == ResolveMiss(byEmail, LastWithKey(org, missed, k).value)
  {
    var init := missed[..|missed| - 1];
    var a := missed[|missed| - 1];
    assert missed == init + [a];
    if AuthorCacheKey(org, a) != k {
      assert KeysOf(org, missed) == KeysOf(org, init) + {AuthorCacheKey(org, a)};
      ResolveMissedWriteIsLast(org, byEmail, base, init, k);
    }
  }

  /** When several authors share a cache key (addresses equal up to case), the
      one write for that key is the result of the last of them: a later lookup
      of the others is served that author's record. */
  lemma CacheWriteIsLastSharer(
    org: int,
    authors: seq<CommitAuthor>,
    cache: map<CacheKey, Resolved>,
    userEmails: seq<UserEmail>,
    members: map<int, User>,
    a: CommitAuthor)
    requires DistinctIds(authors)
    requires a in authors && AuthorCacheKey(org, a) !in cache
    ensures
      var r := GetUsersForAuthors(org, authors, cache, userEmails, members);
      var last := LastWithKey(org, authors, AuthorCacheKey(org, a));
      && last.Some? && last.value in authors
      && EqualsIgnoringCase(last.value.email, a.email)
      && r.cacheWrites[AuthorCacheKey(org, a)] == r.results[last.value.id]
  {
    var k := AuthorCacheKey(org, a);
    var (hits, missed) := SplitByCache(org, cache, authors);
    assert a in missed;
    assert k in KeysOf(org, missed);
    var rows := MatchingEmails(userEmails, LowerEmails(missed));
    var byEmail := UsersByEmail(rows, UsersById(rows, members));
    SplitKeepsLastWithKey(org, cache, authors, k);
    ResolveMissedWriteIsLast(org, byEmail, hits, missed, k);
    var last := LastWithKey(org, missed, k).value;
    ResolveMissedResult(org, byEmail, hits, missed, last);
    CacheKeyIgnoresCase(org, org, last, a);
  }

  lemma SecondLookupEntry(
    org: int,
    authors: seq<CommitAuthor>,
    cache: map<CacheKey, Resolved>,
    userEmails: seq<UserEmail>,
    members: map<int, User>,
    a: CommitAuthor)
    requires DistinctIds(authors) && DistinctKeys(org, authors) && a in authors
    ensures
      var first := GetUsersForAuthors(org, authors, cache, userEmails, members);
      GetUsersForAuthors(org, authors, cache + first.cacheWrites, userEmails, members).results[a.id] == first.results[a.id]
  {
    var first := GetUsersForAuthors(org, authors, cache, userEmails, members);
    var cache' := cache + first.cacheWrites;
    var k := AuthorCacheKey(org, a);
    GetUsersForAuthorsResolvesEachAuthor(org, authors, cache', userEmails, members, a);
    GetUsersForAuthorsResolvesEachAuthor(org, authors, cache, userEmails, members, a);
    if k !in cache {
      assert k in first.cacheWrites;
      CacheWritesMatchResults(org, authors, cache, userEmails, members, a);
    } else {
      assert k !in first.cacheWrites;
    }
  }

  /** The write-back is consistent: a second lookup over the updated cache is
      served entirely from the cache, returns the same entries and writes
      nothing, as long as no two authors share an id or a cache key. */
  lemma SecondLookupIsServedFromCache(
    org: int,
    authors: seq<CommitAuthor>,
    cache: map<CacheKey, Resolved>,
    userEmails: seq<UserEmail>,
    members: map<int, User>)
    requires DistinctIds(authors) && DistinctKeys(org, authors)
    ensures
      var first := GetUsersForAuthors(org, authors, cache, userEmails, members);
      var second := GetUsersForAuthors(org, authors, cache + first.cacheWrites, userEmails, members);
      second.results == first.results && second.cacheWrites == map[]
  {
    var first := GetUsersForAuthors(org, authors, cache, userEmails, members);
    var cache' := cache + first.cacheWrites;
    var second := GetUsersForAuthors(org, authors, cache', userEmails, members);
    forall a | a in authors
      ensures second.results[a.id] == first.results[a.id]
    {
      SecondLookupEntry(org, authors, cache, userEmails, members, a);
    }
    SameEntriesSameMap(authors, second.results, first.results);
    NothingMissedTwice(org, authors, cache, first.cacheWrites);
  }

  lemma SameEntriesSameMap(authors: seq<CommitAuthor>, m: map<int, Resolved>, m': map<int, Resolved>)
    requires m.Keys == Ids(authors) && m'.Keys == Ids(authors)
    requires forall a :: a in authors ==> m[a.id] == m'[a.id]
    ensures m == m'
  {
    forall id | id in m
      ensures m[id] == m'[id]
    {
      var a :| a in authors && a.id == id;
    }
  }

  lemma NothingMissedTwice(org: int, authors: seq<CommitAuthor>, cache: map<CacheKey, Resolved>, writes: map<CacheKey, Resolved>)
    requires writes.Keys == set a | a in authors && AuthorCacheKey(org, a) !in cache :: AuthorCacheKey(org, a)
    ensures (set a | a in authors && AuthorCacheKey(org, a) !in cache + writes :: AuthorCacheKey(org, a)) == {}
  {
    forall a | a in authors
      ensures AuthorCacheKey(org, a) in cache + writes
    {
    }
  }
}

=== FILE: Collections.dfy ===
/** Sequence and dictionary shapes the serializer builds: order-preserving
    subsequences, `defaultdict(list)` grouping, and Python dicts, which keep
    insertion order and update an existing key in place. */
module Collections {
  import opened Wrappers

  /** `xs` is `ys` with some elements dropped, the rest kept in order. */
  predicate IsSubsequence<T(==)>(xs: seq<T>, ys: seq<T>)
    decreases |ys|
  {
    if |xs| == 0 then true
    else if |ys| == 0 then false
    else if xs[0] == ys[0] then IsSubsequence(xs[1..], ys[1..])
    else IsSubsequence(xs, ys[1..])
  }

  /** Appending an element to the longer sequence only keeps a subsequence. */
  lemma {:induction false} SubsequenceSkip<T>(xs: seq<T>, ys: seq<T>, z: T)
    requires IsSubsequence(xs, ys)
    ensures IsSubsequence(xs, ys + [z])
    decreases |ys|
  {
    if |xs| == 0 {
    } else if |ys| == 0 {
    } else {
      assert (ys + [z])[0] == ys[0];
      assert (ys + [z])[1..] == ys[1..] + [z];
      if xs[0] == ys[0] {
        SubsequenceSkip(xs[1..], ys[1..], z);
      } else {
        SubsequenceSkip(xs, ys[1..], z);
      }
    }
  }

  /** Appending the same element to both sides keeps a subsequence. */
  lemma {:induction false} SubsequenceKeep<T>(xs: seq<T>, ys: seq<T>, z: T)
    requires IsSubsequence(xs, ys)
    ensures IsSubsequence(xs + [z], ys + [z])
    decreases |ys|
  {
    if |xs| == 0 {
      assert xs + [z] == [z];
      SubsequenceTail([z], ys, z);
    } else if |ys| == 0 {
    } else {
      assert (ys + [z])[0] == ys[0];
      assert (ys + [z])[1..] == ys[1..] + [z];
      assert (xs + [z])[0] == xs[0];
      assert (xs + [z])[1..] == xs[1..] + [z];
      if xs[0] == ys[0] {
        SubsequenceKeep(xs[1..], ys[1..], z);
      } else {
        SubsequenceKeep(xs, ys[1..], z);
      }
    }
  }

  /** An element appended to any sequence is, on its own, a subsequence of the result. */
  lemma {:induction false} SubsequenceTail<T>(xs: seq<T>, ys: seq<T>, z: T)
    requires xs == [z]
    ensures IsSubsequence(xs, ys + [z])
    decreases |ys|
  {
    if |ys| == 0 {
      assert [z][1..] == [];
    } else {
      assert (ys + [z])[1..] == ys[1..] + [z];
      if ys[0] != z {
        SubsequenceTail(xs, ys[1..], z);
      } else {
        assert xs[1..] == [];
      }
    }
  }

  /** The values filed under `k` by `GroupBy`, or `[]`: `d.get(k) or []`. */
  function Lookup<K, V>(g: map<K, seq<V>>, k: K): seq<V> {
    if k in g then g[k] else []
  }

  /** `m.get(k)`: the value under `k`, or `None`. */
  function MapGet<K, V>(m: map<K, V>, k: K): Option<V> {
    if k in m then Some(m[k]) else None
  }

  /** A `defaultdict(list)` filled by appending each row's value under its key, row by row. */
  function GroupBy<K, V>(rows: seq<(K, V)>): (g: map<K, seq<V>>)
    ensures forall k :: k in g ==> |g[k]| > 0
  {
    if |rows| == 0 then map[]
    else
      var g := GroupBy(rows[..|rows| - 1]);
      var (k, v) := rows[|rows| - 1];
      g[k := Lookup(g, k) + [v]]
  }

  /** Reference: the values of the rows keyed `k`, in row order. */
  function ValuesFor<K(==), V>(rows: seq<(K, V)>, k: K): seq<V> {
    if |rows| == 0 then []
    else (if rows[0].0 == k then [rows[0].1] else []) + ValuesFor(rows[1..], k)
  }

  lemma {:induction false} ValuesForAppend<K, V>(rows: seq<(K, V)>, r: (K, V), k: K)
    ensures ValuesFor(rows + [r], k) == ValuesFor(rows, k) + (if r.0 == k then [r.1] else [])
  {
    if |rows| == 0 {
      assert [r][1..] == [];
    } else {
      var rows' := rows + [r];
      assert rows'[0] == rows[0];
      assert rows'[1..] == rows[1..] + [r];
      ValuesForAppend(rows[1..], r, k);
      var head := if rows[0].0 == k then [rows[0].1] else [];
      assert ValuesFor(rows', k) == head + ValuesFor(rows[1..] + [r], k);
      assert ValuesFor(rows, k) == head + ValuesFor(rows[1..], k);
    }
  }

  /** Grouping keeps, under every key, exactly that key's values in row order. */
  lemma {:induction false} GroupByCollectsInOrder<K, V>(rows: seq<(K, V)>, k: K)
    ensures Lookup(GroupBy(rows), k) == ValuesFor(rows, k)
  {
    if |rows| > 0 {
      var init := rows[..|rows| - 1];
      GroupByCollectsInOrder(init, k);
      assert rows == init + [rows[|rows| - 1]];
      ValuesForAppend(init, rows[|rows| - 1], k);
    }
  }

  /** A Python dict: key/value pairs in insertion order. */
  type Dict<K, V> = seq<(K, V)>

  function Keys<K, V>(d: Dict<K, V>): set<K> {
    set i | 0 <= i < |d| :: d[i].0
  }

  function Values<K, V>(d: Dict<K, V>): seq<V> {
    if |d| == 0 then [] else [d[0].1] + Values(d[1..])
  }

  predicate DistinctKeys<K(==), V>(d: Dict<K, V>) {
    forall i, j :: 0 <= i < j < |d| ==> d[i].0 != d[j].0
  }

  /** `d.get(k)`. */
  function Get<K(==), V>(d: Dict<K, V>, k: K): (r: Option<V>)
    ensures r.Some? <==> k in Keys(d)
  {
    if |d| == 0 then None
    else if d[0].0 == k then Some(d[0].1)
    else
      KeysOfCons(d);
      Get(d[1..], k)
  }

  lemma KeysOfCons<K, V>(d: Dict<K, V>)
    requires |d| > 0
    ensures Keys(d) == {d[0].0} + Keys(d[1..])
  {
    assert forall i :: 0 < i < |d| ==> d[i].0 == d[1..][i - 1].0;
    assert forall i :: 0 <= i < |d| - 1 ==> d[1..][i].0 == d[i + 1].0;
  }

  /** `d[k] = v`: an existing key keeps its place, a new one goes last. */
  function Put<K(==,!new), V>(d: Dict<K, V>, k: K, v: V): (r: Dict<K, V>)
    ensures Get(r, k) == Some(v)
    ensures forall k' :: k' != k ==> Get(r, k') == Get(d, k')
    ensures Keys(r) == Keys(d) + {k}
  {
    if |d| == 0 then [(k, v)]
    else if d[0].0 == k then
      var r := [(k, v)] + d[1..];
      assert r[1..] == d[1..];
      KeysOfCons(d);
      KeysOfCons(r);
      r
    else
      var r := [d[0]] + Put(d[1..], k, v);
      assert r[1..] == Put(d[1..], k, v);
      KeysOfCons(d);
      KeysOfCons(r);
      r
  }

  lemma KeysOfDistinctTail<K, V>(d: Dict<K, V>)
    requires |d| > 0 && DistinctKeys(d)
    ensures DistinctKeys(d[1..]) && d[0].0 !in Keys(d[1..])
  {
  }

  /** Assigning into a dict never creates a duplicate key. */
  lemma {:induction false} PutKeepsKeysDistinct<K(!new), V>(d: Dict<K, V>, k: K, v: V)
    requires DistinctKeys(d)
    ensures DistinctKeys(Put(d, k, v))
  {
    if |d| > 0 {
      KeysOfDistinctTail(d);
      var r := Put(d, k, v);
      if d[0].0 != k {
        PutKeepsKeysDistinct(d[1..], k, v);
        assert r[1..] == Put(d[1..], k, v);
        KeysOfCons(r);
      } else {
        assert r[1..] == d[1..];
      }
    }
  }

  /** Assigning a new key appends it, so the values grow by exactly the new value. */
  lemma {:induction false} PutNewKeyAppends<K(!new), V>(d: Dict<K, V>, k: K, v: V)
    requires k !in Keys(d)
    ensures Put(d, k, v) == d + [(k, v)]
  {
    if |d| > 0 {
      KeysOfCons(d);
      PutNewKeyAppends(d[1..], k, v);
    }
  }

  lemma {:induction false} ValuesAppend<K, V>(d: Dict<K, V>, k: K, v: V)
    ensures Values(d + [(k, v)]) == Values(d) + [v]
  {
    if |d| > 0 {
      assert (d + [(k, v)])[1..] == d[1..] + [(k, v)];
      ValuesAppend(d[1..], k, v);
    }
  }

  /** The keys of a dict in insertion order: `list(d)`. */
  function KeySeq<K, V>(d: Dict<K, V>): seq<K> {
    seq(|d|, i requires 0 <= i < |d| => d[i].0)
  }

  lemma KeysAreKeySeq<K, V>(d: Dict<K, V>, k: K)
    ensures k in Keys(d) <==> k in KeySeq(d)
  {
    if k in KeySeq(d) {
      var i :| 0 <= i < |d| && KeySeq(d)[i] == k;
      assert d[i].0 == k;
    }
    if k in Keys(d) {
      var i :| 0 <= i < |d| && d[i].0 == k;
      assert KeySeq(d)[i] == k;
    }
  }

  lemma KeySeqCons<K, V>(x: (K, V), d: Dict<K, V>)
    ensures KeySeq([x] + d) == [x.0] + KeySeq(d)
  {
    assert forall i :: 0 < i <= |d| ==> ([x] + d)[i] == d[i - 1];
  }

  /** Assigning to a key already present keeps the key order; a new key goes last. */
  lemma {:induction false} PutKeyOrder<K(!new), V>(d: Dict<K, V>, k: K, v: V)
    ensures KeySeq(Put(d, k, v)) == if k in Keys(d) then KeySeq(d) else KeySeq(d) + [k]
  {
    if k !in Keys(d) {
      PutNewKeyAppends(d, k, v);
    } else {
      KeysOfCons(d);
      assert d == [d[0]] + d[1..];
      KeySeqCons(d[0], d[1..]);
      if d[0].0 == k {
        KeySeqCons((k, v), d[1..]);
      } else {
        PutKeyOrder(d[1..], k, v);
        KeySeqCons(d[0], Put(d[1..], k, v));
      }
    }
  }

  /** In a dict without duplicate keys, the pair at position `i` is what `Get`
      finds under its key. */
  lemma {:induction false} GetAt<K, V>(d: Dict<K, V>, i: int)
    requires DistinctKeys(d) && 0 <= i < |d|
    ensures Get(d, d[i].0) == Some(d[i].1)
  {
    if i > 0 {
      assert d[0].0 != d[i].0;
      assert d[1..][i - 1] == d[i];
      GetAt(d[1..], i - 1);
    }
  }

  /** `list(d.values())` lists the values position by position. */
  lemma {:induction false} ValuesAt<K, V>(d: Dict<K, V>)
    ensures |Values(d)| == |d|
    ensures forall i :: 0 <= i < |d| ==> Values(d)[i] == d[i].1
  {
    if |d| > 0 {
      ValuesAt(d[1..]);
      assert forall i :: 0 < i < |d| ==> d[1..][i - 1] == d[i];
    }
  }
}

=== FILE: CommitMetadata.dfy ===
/** `_get_commit_metadata` and `_get_deploy_metadata` (release.py lines
    125-205): each release's de-duplicated authors, last commit and last
    deploy. */
module CommitMetadata {
  import opened Wrappers
  import opened Collections
  import opened Authors
  import opened Releases

  /** A serialized commit; its content is not inspected here. */
  datatype Commit = Commit(id: int, key: string)

  /** A serialized deploy; its content is not inspected here. */
  datatype Deploy = Deploy(id: int, environment: string)

  /** The `authors` and `last_commit` entries of one release. */
  datatype ReleaseCommits = ReleaseCommits(authors: seq<Resolved>, lastCommit: Option<Commit>)

  /** `author_ids` (lines 139-141): every author id listed by some release. */
  function AuthorIds(items: seq<Release>): set<int> {
    set i, a | i in items && a in i.authors :: a
  }

  /** `CommitAuthor.objects.filter(id__in=ids)`. */
  function AuthorsWithIds(table: seq<CommitAuthor>, ids: set<int>): (r: seq<CommitAuthor>)
    ensures forall a :: a in r <==> a in table && a.id in ids
  {
    if |table| == 0 then []
    else (if table[0].id in ids then [table[0]] else []) + AuthorsWithIds(table[1..], ids)
  }

  /** The `if author_ids:` guard of line 143 changes nothing: an empty id set
      matches no author. */
  lemma {:induction false} NoIdsNoAuthors(table: seq<CommitAuthor>, ids: set<int>)
    requires ids == {}
    ensures AuthorsWithIds(table, ids) == []
  {
    if |table| > 0 {
      NoIdsNoAuthors(table[1..], ids);
    }
  }

  function OrganizationIds(items: seq<Release>): set<int> {
    set i | i in items :: i.organizationId
  }

  /** `org_ids.pop()` when `len(org_ids) == 1` (lines 149-155). */
  function SingleOrganization(items: seq<Release>): (r: Option<int>)
    ensures forall o :: r == Some(o) <==> OrganizationIds(items) == {o}
  {
    if |items| == 0 then None
    else
      var o := items[0].organizationId;
      assert items[0] in items;
      assert o in OrganizationIds(items);
      if OrganizationIds(items) == {o} then Some(o) else None
  }

  /** `users_by_author` (lines 143-157): resolved only when all releases belong
      to one organization. The cache write-back is dropped here. */
  function UsersByAuthor(
    items: seq<Release>,
    authorTable: seq<CommitAuthor>,
    cache: map<CacheKey, Resolved>,
    userEmails: seq<UserEmail>,
    members: map<int, User>): (r: map<int, Resolved>)
    ensures (forall o :: OrganizationIds(items) != {o}) ==> r == map[]
    ensures forall o :: OrganizationIds(items) == {o} ==>
      r == GetUsersForAuthors(o, AuthorsWithIds(authorTable, AuthorIds(items)), cache, userEmails, members).results
    ensures r.Keys <= AuthorIds(items)
  {
    var ids := AuthorIds(items);
    var authors := if |ids| > 0 then AuthorsWithIds(authorTable, ids) else [];
    assert authors == AuthorsWithIds(authorTable, ids) by {
      if |ids| == 0 {
        NoIdsNoAuthors(authorTable, ids);
      }
    }
    assert Ids(authors) <= ids;
    if |authors| == 0 then
      assert forall o :: GetUsersForAuthors(o, authors, cache, userEmails, members).results == map[] by {
        assert Ids(authors) == {};
      }
      map[]
    else match SingleOrganization(items)
      case None => map[]
      case Some(org) => GetUsersForAuthors(org, authors, cache, userEmails, members).results
  }

  /** The non-`None` values of `users_by_author.get(a) for a in ids`, in order. */
  function Resolutions(usersByAuthor: map<int, Resolved>, ids: seq<int>): seq<Resolved> {
    if |ids| == 0 then []
    else
      var a := ids[|ids| - 1];
      Resolutions(usersByAuthor, ids[..|ids| - 1]) + (if a in usersByAuthor then [usersByAuthor[a]] else [])
  }

  function EmailsOf(xs: seq<Resolved>): set<string> {
    set x | x in xs :: x.Email()
  }

  predicate UniqueEmails(xs: seq<Resolved>) {
    forall i, j :: 0 <= i < j < |xs| ==> xs[i].Email() != xs[j].Email()
  }

  /** `item_authors` (lines 168-173): one pass keeping a user unless its e-mail
      was already taken; `seen_authors` is the set of e-mails kept so far. */
  function ReleaseAuthors(usersByAuthor: map<int, Resolved>, ids: seq<int>): (r: seq<Resolved>)
    ensures UniqueEmails(r)
    ensures IsSubsequence(r, Resolutions(usersByAuthor, ids))
  {
    if |ids| == 0 then []
    else
      var init := ids[..|ids| - 1];
      var a := ids[|ids| - 1];
      var prev := ReleaseAuthors(usersByAuthor, init);
      var before := Resolutions(usersByAuthor, init);
      if a in usersByAuthor then
        var u := usersByAuthor[a];
        if u.Email() !in EmailsOf(prev) then
          SubsequenceKeep(prev, before, u);
          assert forall i :: 0 <= i < |prev| ==> prev[i] in prev;
          prev + [u]
        else
          SubsequenceSkip(prev, before, u);
          prev
      else
        assert before + [] == before;
        prev
  }

  /** Reference: the first element carrying e-mail `e`. */
  function FirstWithEmail(xs: seq<Resolved>, e: string): Option<Resolved> {
    if |xs| == 0 then None
    else if xs[0].Email() == e then Some(xs[0])
    else FirstWithEmail(xs[1..], e)
  }

  lemma {:induction false} FirstWithEmailAppend(xs: seq<Resolved>, x: Resolved, e: string)
    ensures FirstWithEmail(xs + [x], e)
         == if FirstWithEmail(xs, e).Some? then FirstWithEmail(xs, e)
            else if x.Email() == e then Some(x)
            else None
  {
    if |xs| == 0 {
      assert [x][1..] == [];
    } else {
      assert (xs + [x])[1..] == xs[1..] + [x];
      FirstWithEmailAppend(xs[1..], x, e);
    }
  }

  lemma {:induction false} FirstWithEmailFound(xs: seq<Resolved>, e: string)
    ensures FirstWithEmail(xs, e).Some? <==> e in EmailsOf(xs)
  {
    if |xs| > 0 {
      FirstWithEmailFound(xs[1..], e);
      assert EmailsOf(xs) == {xs[0].Email()} + EmailsOf(xs[1..]) by {
        assert forall x :: x in xs <==> x == xs[0] || x in xs[1..];
      }
    }
  }

  /** Every e-mail among the resolved users is kept, and it is kept with the
      first user that carries it; with `UniqueEmails` and the subsequence
      guarantee this pins the list down completely. */
  lemma {:induction false} ReleaseAuthorsKeepFirst(usersByAuthor: map<int, Resolved>, ids: seq<int>, e: string)
    ensures FirstWithEmail(ReleaseAuthors(usersByAuthor, ids), e) == FirstWithEmail(Resolutions(usersByAuthor, ids), e)
  {
    if |ids| > 0 {
      var init := ids[..|ids| - 1];
      var a := ids[|ids| - 1];
      var prev := ReleaseAuthors(usersByAuthor, init);
      var before := Resolutions(usersByAuthor, init);
      ReleaseAuthorsKeepFirst(usersByAuthor, init, e);
      if a in usersByAuthor {
        var u := usersByAuthor[a];
        FirstWithEmailAppend(before, u, e);
        if u.Email() !in EmailsOf(prev) {
          FirstWithEmailAppend(prev, u, e);
        } else if u.Email() == e {
          FirstWithEmailFound(prev, e);
        }
      } else {
        assert before + [] == before;
      }
    }
  }

  function CommitIds(items: seq<Release>): set<int> {
    set i | i in items && IsSetId(i.lastCommitId) :: i.lastCommitId.value
  }

  function DeployIds(items: seq<Release>): set<int> {
    set i | i in items && IsSetId(i.lastDeployId) :: i.lastDeployId.value
  }

  /** `Model.objects.filter(id__in=ids)` keyed by id; `{}` when `ids` is empty. */
  function FetchByIds<T>(table: map<int, T>, ids: set<int>): map<int, T> {
    map id | id in table && id in ids :: table[id]
  }

  /** `fetched.get(item.last_..._id)`: `None` is never a key. */
  function GetById<T>(fetched: map<int, T>, id: Option<int>): Option<T> {
    match id
    case Some(k) => if k in fetched then Some(fetched[k]) else None
    case None => None
  }

  /** `_get_commit_metadata(item_list)`: one entry per release, in list order.
      `authorTable` is the `CommitAuthor` table and `commits` the commits by id. */
  function GetCommitMetadata(
    items: seq<Release>,
    authorTable: seq<CommitAuthor>,
    cache: map<CacheKey, Resolved>,
    userEmails: seq<UserEmail>,
    members: map<int, User>,
    commits: map<int, Commit>): (r: seq<ReleaseCommits>)
    ensures |r| == |items|
    ensures forall k :: 0 <= k < |items| ==> UniqueEmails(r[k].authors)
    ensures forall k :: 0 <= k < |items| ==>
      r[k].authors == ReleaseAuthors(UsersByAuthor(items, authorTable, cache, userEmails, members), items[k].authors)
    ensures forall k :: 0 <= k < |items| ==>
      r[k].lastCommit == if IsSetId(items[k].lastCommitId) && items[k].lastCommitId.value in commits
                         then Some(commits[items[k].lastCommitId.value]) else None
  {
    var usersByAuthor := UsersByAuthor(items, authorTable, cache, userEmails, members);
    var fetched := FetchByIds(commits, CommitIds(items));
    assert forall k :: 0 <= k < |items| ==> items[k] in items;
    seq(|items|, k requires 0 <= k < |items| =>
      ReleaseCommits(ReleaseAuthors(usersByAuthor, items[k].authors), GetById(fetched, items[k].lastCommitId)))
  }

  /** `_get_deploy_metadata(item_list)`: each release's `last_deploy`, present
      exactly when its id is set and names a stored deploy. */
  function GetDeployMetadata(items: seq<Release>, deploys: map<int, Deploy>): (r: seq<Option<Deploy>>)
    ensures |r| == |items|
    ensures forall k :: 0 <= k < |items| ==>
      r[k] == if IsSetId(items[k].lastDeployId) && items[k].lastDeployId.value in deploys
              then Some(deploys[items[k].lastDeployId.value]) else None
  {
    var fetched := FetchByIds(deploys, DeployIds(items));
    assert forall k :: 0 <= k < |items| ==> items[k] in items;
    seq(|items|, k requires 0 <= k < |items| => GetById(fetched, items[k].lastDeployId))
  }

  /** Releases from several organizations get no authors at all. */
  lemma MixedOrganizationsHaveNoAuthors(
    items: seq<Release>,
    authorTable: seq<CommitAuthor>,
    cache: map<CacheKey, Resolved>,
    userEmails: seq<UserEmail>,
    members: map<int, User>,
    commits: map<int, Commit>)
    requires |OrganizationIds(items)| > 1
    ensures forall c :: c in GetCommitMetadata(items, authorTable, cache, userEmails, members, commits) ==> c.authors == []
  {
    var ub := UsersByAuthor(items, authorTable, cache, userEmails, members);
    assert SingleOrganization(items).None?;
    assert ub == map[];
    forall ids: seq<int>
      ensures ReleaseAuthors(map[], ids) == []
    {
      NoUsersNoAuthors(ids);
    }
  }

  lemma {:induction false} NoUsersNoAuthors(ids: seq<int>)
    ensures ReleaseAuthors(map[], ids) == []
  {
    if |ids| > 0 {
      NoUsersNoAuthors(ids[..|ids| - 1]);
    }
  }
}

=== FILE: ReleaseData.dfy ===
/** The per-version and per-release aggregates of `__get_project_id_list`,
    `__get_release_data_no_environment` and
    `__get_release_data_with_environments` (release.py lines 207-286).
    Timestamps are integers: only their order matters. */
module ReleaseData {
  import opened Wrappers
  import opened Collections
  import opened Releases

  /** Strictly increasing, hence sorted and free of duplicates. */
  predicate StrictlyIncreasing(s: seq<int>) {
    forall i, j :: 0 <= i < j < |s| ==> s[i] < s[j]
  }

  /** Adds `x` to a strictly increasing list, keeping it so. */
  function Insert(s: seq<int>, x: int): (r: seq<int>)
    requires StrictlyIncreasing(s)
    ensures StrictlyIncreasing(r)
    ensures forall y :: y in r <==> y in s || y == x
  {
    if |s| == 0 then [x]
    else if x < s[0] then [x] + s
    else if x == s[0] then s
    else
      var rest := Insert(s[1..], x);
      assert forall y :: y in s <==> y == s[0] || y in s[1..] by {
        assert s == [s[0]] + s[1..];
      }
      assert forall k :: 0 <= k < |rest| ==> s[0] < rest[k] by {
        forall k | 0 <= k < |rest| ensures s[0] < rest[k] {
          assert rest[k] in rest;
        }
      }
      [s[0]] + rest
  }

  /** The outcome of `__get_project_id_list`: the ids, and whether they are the
      releases' own `_for_project_id`s (`True`) or the fallback query (`False`). */
  datatype ProjectIdList = ProjectIdList(ids: seq<int>, specialized: bool)

  /** The loop of lines 211-215: the sorted set of project ids seen so far, and
      whether some release had none. */
  function CollectProjectIds(items: seq<Release>): (r: (seq<int>, bool))
    ensures StrictlyIncreasing(r.0)
    ensures forall p :: p in r.0 <==> exists i :: i in items && i.forProjectId == Some(p)
    ensures r.1 <==> exists i :: i in items && i.forProjectId.None?
  {
    if |items| == 0 then ([], false)
    else
      var init := items[..|items| - 1];
      var last := items[|items| - 1];
      var (ids, fallback) := CollectProjectIds(init);
      assert forall i :: i in items <==> i in init || i == last by {
        assert items == init + [last];
      }
      match last.forProjectId
      case Some(p) => (Insert(ids, p), fallback)
      case None => (ids, true)
  }

  /** `__get_project_id_list(item_list)`. `linkedProjectIds` is the fallback
      query's answer: the distinct projects linked to the releases. */
  function GetProjectIdList(items: seq<Release>, linkedProjectIds: seq<int>): (r: ProjectIdList)
    ensures r.specialized <==> forall i :: i in items ==> i.forProjectId.Some?
    ensures r.specialized ==> StrictlyIncreasing(r.ids)
    ensures r.specialized ==> forall p :: p in r.ids <==> exists i :: i in items && i.forProjectId == Some(p)
    ensures !r.specialized ==> r.ids == linkedProjectIds
  {
    var (ids, fallback) := CollectProjectIds(items);
    if !fallback then ProjectIdList(ids, true) else ProjectIdList(linkedProjectIds, false)
  }

  /** A row contributing to a version's first and last sighting: a tag value of
      `tagstore.get_release_tags`, or a `ReleaseProjectEnvironment` row. */
  datatype SeenRow = SeenRow(version: string, firstSeen: int, lastSeen: int)

  /** The `first_seen` and `last_seen` dicts, keyed by version. */
  datatype Seen = Seen(first: map<string, int>, last: map<string, int>)

  ghost predicate HasRow(rows: seq<SeenRow>, v: string) {
    exists i :: 0 <= i < |rows| && rows[i].version == v
  }

  /** `first` maps exactly the versions with rows, each to the least `firstSeen`
      among its rows. */
  ghost predicate IsEarliest(first: map<string, int>, rows: seq<SeenRow>) {
    && (forall v :: v in first <==> HasRow(rows, v))
    && (forall i :: 0 <= i < |rows| ==> rows[i].version in first && first[rows[i].version] <= rows[i].firstSeen)
    && (forall v :: v in first ==> exists i :: 0 <= i < |rows| && rows[i].version == v && rows[i].firstSeen == first[v])
  }

  /** `last` maps exactly the versions with rows, each to the greatest `lastSeen`
      among its rows. */
  ghost predicate IsLatest(last: map<string, int>, rows: seq<SeenRow>) {
    && (forall v :: v in last <==> HasRow(rows, v))
    && (forall i :: 0 <= i < |rows| ==> rows[i].version in last && last[rows[i].version] >= rows[i].lastSeen)
    && (forall v :: v in last ==> exists i :: 0 <= i < |rows| && rows[i].version == v && rows[i].lastSeen == last[v])
  }

  /** `t` is a version's earliest sighting: present exactly when the version
      has rows, and then the least `firstSeen` among them. */
  ghost predicate EarliestOf(t: Option<int>, rows: seq<SeenRow>, v: string) {
    && (t.Some? <==> HasRow(rows, v))
    && (t.Some? ==> forall i :: 0 <= i < |rows| && rows[i].version == v ==> t.value <= rows[i].firstSeen)
    && (t.Some? ==> exists i :: 0 <= i < |rows| && rows[i].version == v && rows[i].firstSeen == t.value)
  }

  /** `t` is a version's latest sighting. */
  ghost predicate LatestOf(t: Option<int>, rows: seq<SeenRow>, v: string) {
    && (t.Some? <==> HasRow(rows, v))
    && (t.Some? ==> forall i :: 0 <= i < |rows| && rows[i].version == v ==> t.value >= rows[i].lastSeen)
    && (t.Some? ==> exists i :: 0 <= i < |rows| && rows[i].version == v && rows[i].lastSeen == t.value)
  }

  /** Looking a version up in an earliest-sighting map gives its earliest sighting. */
  lemma EarliestEntry(first: map<string, int>, rows: seq<SeenRow>, v: string)
    requires IsEarliest(first, rows)
    ensures EarliestOf(MapGet(first, v), rows, v)
  {
  }

  /** Looking a version up in a latest-sighting map gives its latest sighting. */
  lemma LatestEntry(last: map<string, int>, rows: seq<SeenRow>, v: string)
    requires IsLatest(last, rows)
    ensures LatestOf(MapGet(last, v), rows, v)
  {
  }

  function Min(a: int, b: int): int {
    if a <= b then a else b
  }

  function Max(a: int, b: int): int {
    if a >= b then a else b
  }

  /** The versions with rows after one more row. */
  lemma HasRowStep(init: seq<SeenRow>, r: SeenRow, v: string)
    ensures HasRow(init + [r], v) <==> HasRow(init, v) || v == r.version
  {
    var rows := init + [r];
    if HasRow(init, v) {
      var i :| 0 <= i < |init| && init[i].version == v;
      assert rows[i] == init[i];
    }
    if v == r.version {
      assert rows[|init|] == r;
    }
    if HasRow(rows, v) && v != r.version {
      var i :| 0 <= i < |rows| && rows[i].version == v;
      assert rows[i] == init[i];
    }
  }

  /** Folding one more row into an earliest-sighting map by taking the minimum. */
  lemma EarliestStep(first: map<string, int>, init: seq<SeenRow>, r: SeenRow)
    requires IsEarliest(first, init)
    ensures IsEarliest(first[r.version := if r.version in first then Min(r.firstSeen, first[r.version]) else r.firstSeen], init + [r])
  {
    var rows := init + [r];
    var first' := first[r.version := if r.version in first then Min(r.firstSeen, first[r.version]) else r.firstSeen];
    forall v
      ensures v in first' <==> HasRow(rows, v)
    {
      HasRowStep(init, r, v);
    }
    forall i | 0 <= i < |rows|
      ensures rows[i].version in first' && first'[rows[i].version] <= rows[i].firstSeen
    {
      if i < |init| {
        assert rows[i] == init[i];
      }
    }
    forall v | v in first'
      ensures exists i :: 0 <= i < |rows| && rows[i].version == v && rows[i].firstSeen == first'[v]
    {
      if v == r.version && first'[v] == r.firstSeen {
        assert rows[|init|] == r;
      } else {
        var i :| 0 <= i < |init| && init[i].version == v && init[i].firstSeen == first[v];
        assert rows[i] == init[i];
      }
    }
  }

  /** Folding one more row into a latest-sighting map by taking the maximum. */
  lemma LatestStep(last: map<string, int>, init: seq<SeenRow>, r: SeenRow)
    requires IsLatest(last, init)
    ensures IsLatest(last[r.version := if r.version in last then Max(r.lastSeen, last[r.version]) else r.lastSeen], init + [r])
  {
    var rows := init + [r];
    var last' := last[r.version := if r.version in last then Max(r.lastSeen, last[r.version]) else r.lastSeen];
    forall v
      ensures v in last' <==> HasRow(rows, v)
    {
      HasRowStep(init, r, v);
    }
    forall i | 0 <= i < |rows|
      ensures rows[i].version in last' && last'[rows[i].version] >= rows[i].lastSeen
    {
      if i < |init| {
        assert rows[i] == init[i];
      }
    }
    forall v | v in last'
      ensures exists i :: 0 <= i < |rows| && rows[i].version == v && rows[i].lastSeen == last'[v]
    {
      if v == r.version && last'[v] == r.lastSeen {
        assert rows[|init|] == r;
      } else {
        var i :| 0 <= i < |init| && init[i].version == v && init[i].lastSeen == last[v];
        assert rows[i] == init[i];
      }
    }
  }

  /** Lines 269-273: overwrite only when the version is new or the value earlier;
      this stores the minimum. */
  function KeepEarlier(m: map<string, int>, v: string, t: int): (m': map<string, int>)
    ensures m' == m[v := if v in m then Min(t, m[v]) else t]
  {
    if v !in m || m[v] > t then m[v := t]
    else
      assert m[v := m[v]] == m;
      m
  }

  /** Lines 274-278: overwrite only when the version is new or the value later;
      this stores the maximum. */
  function KeepLater(m: map<string, int>, v: string, t: int): (m': map<string, int>)
    ensures m' == m[v := if v in m then Max(t, m[v]) else t]
  {
    if v !in m || m[v] < t then m[v := t]
    else
      assert m[v := m[v]] == m;
      m
  }

  /** Lines 241-245: `min`/`max` against the value already stored, if any. */
  function SeenFromTags(rows: seq<SeenRow>): (s: Seen)
    ensures IsEarliest(s.first, rows)
    ensures IsLatest(s.last, rows)
  {
    if |rows| == 0 then Seen(map[], map[])
    else
      var init := rows[..|rows| - 1];
      var tv := rows[|rows| - 1];
      var s := SeenFromTags(init);
      assert rows == init + [tv];
      EarliestStep(s.first, init, tv);
      LatestStep(s.last, init, tv);
      var first := if tv.version in s.first then Min(tv.firstSeen, s.first[tv.version]) else tv.firstSeen;
      var last := if tv.version in s.last then Max(tv.lastSeen, s.last[tv.version]) else tv.lastSeen;
      Seen(s.first[tv.version := first], s.last[tv.version := last])
  }

  /** Lines 268-273: overwrite `first_seen` when the version is new or the row
      is earlier than the stored value. */
  function EarliestFromEnvironments(rows: seq<SeenRow>): (first: map<string, int>)
    ensures IsEarliest(first, rows)
  {
    if |rows| == 0 then map[]
    else
      var init := rows[..|rows| - 1];
      var r := rows[|rows| - 1];
      var first := EarliestFromEnvironments(init);
      assert rows == init + [r];
      EarliestStep(first, init, r);
      KeepEarlier(first, r.version, r.firstSeen)
  }

  /** Lines 274-278: overwrite `last_seen` when the version is new or the row is
      later than the stored value. */
  function LatestFromEnvironments(rows: seq<SeenRow>): (last: map<string, int>)
    ensures IsLatest(last, rows)
  {
    if |rows| == 0 then map[]
    else
      var init := rows[..|rows| - 1];
      var r := rows[|rows| - 1];
      var last := LatestFromEnvironments(init);
      assert rows == init + [r];
      LatestStep(last, init, r);
      KeepLater(last, r.version, r.lastSeen)
  }

  /** Lines 268-278: the loop updates both dicts row by row; the two updates do
      not interact, so they are folded separately. */
  function SeenFromEnvironments(rows: seq<SeenRow>): (s: Seen)
    ensures IsEarliest(s.first, rows)
    ensures IsLatest(s.last, rows)
  {
    Seen(EarliestFromEnvironments(rows), LatestFromEnvironments(rows))
  }

  /** The earliest-sighting map is unique. */
  lemma EarliestIsUnique(a: map<string, int>, b: map<string, int>, rows: seq<SeenRow>)
    requires IsEarliest(a, rows) && IsEarliest(b, rows)
    ensures a == b
  {
    forall v | v in a
      ensures a[v] == b[v]
    {
      var i :| 0 <= i < |rows| && rows[i].version == v && rows[i].firstSeen == a[v];
      var j :| 0 <= j < |rows| && rows[j].version == v && rows[j].firstSeen == b[v];
    }
  }

  /** The latest-sighting map is unique. */
  lemma LatestIsUnique(a: map<string, int>, b: map<string, int>, rows: seq<SeenRow>)
    requires IsLatest(a, rows) && IsLatest(b, rows)
    ensures a == b
  {
    forall v | v in a
      ensures a[v] == b[v]
    {
      var i :| 0 <= i < |rows| && rows[i].version == v && rows[i].lastSeen == a[v];
      var j :| 0 <= j < |rows| && rows[j].version == v && rows[j].lastSeen == b[v];
    }
  }

  /** The two folds, written differently in the two code paths, agree on every input. */
  lemma SeenFoldsAgree(rows: seq<SeenRow>)
    ensures SeenFromTags(rows) == SeenFromEnvironments(rows)
  {
    var t := SeenFromTags(rows);
    var e := SeenFromEnvironments(rows);
    EarliestIsUnique(t.first, e.first, rows);
    LatestIsUnique(t.last, e.last, rows);
  }

  /** A `ReleaseProject` (or aggregated `ReleaseProjectEnvironment`) row:
      a project's new-issue count for a release; `None` is SQL `NULL`. */
  datatype GroupRow = GroupRow(projectId: int, releaseId: int, newGroups: Option<int>)

  /** `group_counts_by_release`: release id to a dict from project id to count. */
  type GroupCounts = map<int, Dict<int, Option<int>>>

  /** `group_counts_by_release.get(release_id) or {}`. */
  function CountsOf(counts: GroupCounts, releaseId: int): Dict<int, Option<int>> {
    if releaseId in counts then counts[releaseId] else []
  }

  /** Lines 249-252, when a project is given: each row replaces the release's
      dict by `{project.id: new_groups}`. */
  function CountsForProject(projectId: int, rows: seq<GroupRow>): (counts: GroupCounts)
    ensures forall rid :: rid in counts ==> Keys(counts[rid]) == {projectId}
  {
    if |rows| == 0 then map[]
    else
      var row := rows[|rows| - 1];
      var d := [(projectId, row.newGroups)];
      assert d[0].0 == projectId;
      assert Keys(d) == {projectId};
      CountsForProject(projectId, rows[..|rows| - 1])[row.releaseId := d]
  }

  /** Lines 254-257 and 281-284: `setdefault(release_id, {})[project_id] = new_groups`. */
  function CountsMerged(rows: seq<GroupRow>): (counts: GroupCounts)
    ensures forall rid :: rid in counts ==> DistinctKeys(counts[rid])
  {
    if |rows| == 0 then map[]
    else
      var row := rows[|rows| - 1];
      var counts := CountsMerged(rows[..|rows| - 1]);
      PutKeepsKeysDistinct(CountsOf(counts, row.releaseId), row.projectId, row.newGroups);
      counts[row.releaseId := Put(CountsOf(counts, row.releaseId), row.projectId, row.newGroups)]
  }

  /** The `new_groups__isnull=False` filter of the query at lines 254-256. */
  function NonNull(rows: seq<GroupRow>): (r: seq<GroupRow>)
    ensures forall g :: g in r <==> g in rows && g.newGroups.Some?
  {
    if |rows| == 0 then []
    else (if rows[0].newGroups.Some? then [rows[0]] else []) + NonNull(rows[1..])
  }

  /** Reference: the count of the last row for this release and project, if any. */
  function LastCount(rows: seq<GroupRow>, releaseId: int, projectId: int): Option<Option<int>> {
    if |rows| == 0 then None
    else
      var row := rows[|rows| - 1];
      if row.releaseId == releaseId && row.projectId == projectId then Some(row.newGroups)
      else LastCount(rows[..|rows| - 1], releaseId, projectId)
  }

  /** Reference: the count of the last row for this release, whatever its project. */
  function LastReleaseCount(rows: seq<GroupRow>, releaseId: int): Option<Option<int>> {
    if |rows| == 0 then None
    else
      var row := rows[|rows| - 1];
      if row.releaseId == releaseId then Some(row.newGroups)
      else LastReleaseCount(rows[..|rows| - 1], releaseId)
  }

  /** With a project given, a release's dict is `{project: count}` from the
      release's last row, and `{}` when the release has no row. */
  lemma {:induction false} CountsForProjectIsLastRow(projectId: int, rows: seq<GroupRow>, releaseId: int)
    ensures CountsOf(CountsForProject(projectId, rows), releaseId)
         == match LastReleaseCount(rows, releaseId)
            case None => []
            case Some(v) => [(projectId, v)]
  {
    if |rows| > 0 {
      CountsForProjectIsLastRow(projectId, rows[..|rows| - 1], releaseId);
    }
  }

  /** Merging is last-wins per (release, project) pair. */
  lemma {:induction false} CountsMergedIsLastRow(rows: seq<GroupRow>, releaseId: int, projectId: int)
    ensures Get(CountsOf(CountsMerged(rows), releaseId), projectId) == LastCount(rows, releaseId, projectId)
  {
    if |rows| > 0 {
      CountsMergedIsLastRow(rows[..|rows| - 1], releaseId, projectId);
    }
  }

  /** Reference: the projects of the release's rows, each once, in order of
      first appearance. */
  function FirstProjects(rows: seq<GroupRow>, releaseId: int): seq<int> {
    if |rows| == 0 then []
    else
      var row := rows[|rows| - 1];
      var ps := FirstProjects(rows[..|rows| - 1], releaseId);
      if row.releaseId == releaseId && row.projectId !in ps then ps + [row.projectId] else ps
  }

  /** The count the last row of this release and project carries. */
  function LastValue(rows: seq<GroupRow>, releaseId: int, projectId: int): Option<int> {
    match LastCount(rows, releaseId, projectId)
    case Some(v) => v
    case None => None
  }

  /** Reference: each of the release's projects' last count, projects in order
      of first appearance. */
  function LastCounts(rows: seq<GroupRow>, releaseId: int): seq<Option<int>> {
    var ps := FirstProjects(rows, releaseId);
    seq(|ps|, i requires 0 <= i < |ps| => LastValue(rows, releaseId, ps[i]))
  }

  /** A release's merged dict lists its projects in order of first appearance:
      assigning to a project already present keeps its place. */
  lemma {:induction false} MergedKeyOrder(rows: seq<GroupRow>, releaseId: int)
    ensures KeySeq(CountsOf(CountsMerged(rows), releaseId)) == FirstProjects(rows, releaseId)
  {
    if |rows| > 0 {
      var init := rows[..|rows| - 1];
      var row := rows[|rows| - 1];
      MergedKeyOrder(init, releaseId);
      if row.releaseId == releaseId {
        var d := CountsOf(CountsMerged(init), releaseId);
        PutKeyOrder(d, row.projectId, row.newGroups);
        KeysAreKeySeq(d, row.projectId);
      }
    }
  }

  /** The values of a release's merged dict are its projects' last counts, in
      order of first appearance. When a (release, project) pair repeats, only
      its last row's count is kept. */
  lemma MergedValuesAreLastCounts(rows: seq<GroupRow>, releaseId: int)
    ensures Values(CountsOf(CountsMerged(rows), releaseId)) == LastCounts(rows, releaseId)
  {
    var d := CountsOf(CountsMerged(rows), releaseId);
    var ps := FirstProjects(rows, releaseId);
    MergedKeyOrder(rows, releaseId);
    ValuesAt(d);
    assert DistinctKeys(d);
    forall i | 0 <= i < |d|
      ensures Values(d)[i] == LastCounts(rows, releaseId)[i]
    {
      assert KeySeq(d)[i] == d[i].0 == ps[i];
      GetAt(d, i);
      CountsMergedIsLastRow(rows, releaseId, ps[i]);
    }
  }

  /** `total + v` where either may be `None`: adding `None` raises `TypeError`. */
  function AddCount(total: Option<int>, v: Option<int>): Option<int> {
    if total.Some? && v.Some? then Some(total.value + v.value) else None
  }

  /** `sum(values)`, left to right from 0; `None` when some value is `NULL`,
      where Python raises `TypeError`. */
  function SumCounts(vals: seq<Option<int>>): Option<int> {
    if |vals| == 0 then Some(0) else AddCount(SumCounts(vals[..|vals| - 1]), vals[|vals| - 1])
  }

  /** Reference: the total of the counts of all rows for the release. */
  function RowsTotal(rows: seq<GroupRow>, releaseId: int): Option<int> {
    if |rows| == 0 then Some(0)
    else
      var row := rows[|rows| - 1];
      var total := RowsTotal(rows[..|rows| - 1], releaseId);
      if row.releaseId == releaseId then AddCount(total, row.newGroups) else total
  }

  /** Each (release, project) pair occurs in at most one row, as the
      `ReleaseProject` table's uniqueness constraint guarantees. */
  predicate DistinctPairs(rows: seq<GroupRow>) {
    forall i, j :: 0 <= i < j < |rows| ==>
      rows[i].releaseId != rows[j].releaseId || rows[i].projectId != rows[j].projectId
  }

  lemma {:induction false} LastCountFound(rows: seq<GroupRow>, releaseId: int, projectId: int)
    ensures LastCount(rows, releaseId, projectId).Some?
        <==> exists i :: 0 <= i < |rows| && rows[i].releaseId == releaseId && rows[i].projectId == projectId
  {
    if |rows| > 0 {
      var init := rows[..|rows| - 1];
      LastCountFound(init, releaseId, projectId);
      assert forall i :: 0 <= i < |init| ==> rows[i] == init[i];
    }
  }

  /** Summing a release's merged dict adds up all of its rows' counts, when no
      (release, project) pair repeats. */
  lemma {:induction false} MergedSumIsRowsTotal(rows: seq<GroupRow>, releaseId: int)
    requires DistinctPairs(rows)
    ensures SumCounts(Values(CountsOf(CountsMerged(rows), releaseId))) == RowsTotal(rows, releaseId)
  {
    if |rows| > 0 {
      var init := rows[..|rows| - 1];
      var row := rows[|rows| - 1];
      assert DistinctPairs(init);
      MergedSumIsRowsTotal(init, releaseId);
      if row.releaseId == releaseId {
        var d := CountsOf(CountsMerged(init), releaseId);
        CountsMergedIsLastRow(init, releaseId, row.projectId);
        LastCountFound(init, releaseId, row.projectId);
        assert row.projectId !in Keys(d);
        PutNewKeyAppends(d, row.projectId, row.newGroups);
        ValuesAppend(d, row.projectId, row.newGroups);
        var vs := Values(d) + [row.newGroups];
        assert vs[..|vs| - 1] == Values(d);
      }
    }
  }
}

=== FILE: Releases.dfy ===
/** The `Release` rows the serializer is given, with the attributes it reads. */
module Releases {
  import opened Wrappers

  /** A release in `item_list`. `authors` holds commit-author ids, and
      `forProjectId` is the `_for_project_id` attribute some callers attach. */
  datatype Release = Release(
    id: int,
    version: string,
    organizationId: int,
    authors: seq<int>,
    lastCommitId: Option<int>,
    lastDeployId: Option<int>,
    ownerId: Option<int>,
    forProjectId: Option<int>)

  /** Python truthiness of a nullable id column: `None` and `0` are both false. */
  predicate IsSetId(id: Option<int>) {
    id.Some? && id.value != 0
  }
}

=== FILE: Text.dfy ===
/** ASCII case folding. It stands in for Python's `str.lower()` on e-mail
    addresses and for the case-insensitive comparison behind `in_iexact`. */
module Text {

  predicate IsUpper(c: char) {
    'A' <= c <= 'Z'
  }

  function LowerChar(c: char): char {
    if IsUpper(c) then (c as int + 32) as char else c
  }

  /** `s.lower()`, restricted to ASCII letters. */
  function Lower(s: string): (r: string)
    ensures |r| == |s|
    ensures forall i :: 0 <= i < |s| ==> r[i] == LowerChar(s[i])
  {
    if |s| == 0 then "" else [LowerChar(s[0])] + Lower(s[1..])
  }

  /** Two characters name the same letter up to ASCII case. */
  predicate SameLetterIgnoringCase(c: char, d: char) {
    || c == d
    || (IsUpper(c) && d as int == c as int + 32)
    || (IsUpper(d) && c as int == d as int + 32)
  }

  /** Case-insensitive equality, defined character by character without lower-casing. */
  predicate EqualsIgnoringCase(s: string, t: string) {
    |s| == |t| && forall i :: 0 <= i < |s| ==> SameLetterIgnoringCase(s[i], t[i])
  }

  lemma LowerCharAgreesIffSameLetter(c: char, d: char)
    ensures LowerChar(c) == LowerChar(d) <==> SameLetterIgnoringCase(c, d)
  {
  }

  /** Comparing lower-cased strings is exactly case-insensitive comparison. */
  lemma LowerAgreesIffEqualsIgnoringCase(s: string, t: string)
    ensures Lower(s) == Lower(t) <==> EqualsIgnoringCase(s, t)
  {
    forall i | 0 <= i < |s| && i < |t|
      ensures LowerChar(s[i]) == LowerChar(t[i]) <==> SameLetterIgnoringCase(s[i], t[i])
    {
      LowerCharAgreesIffSameLetter(s[i], t[i]);
    }
    if EqualsIgnoringCase(s, t) {
      assert forall i :: 0 <= i < |s| ==> Lower(s)[i] == Lower(t)[i];
    }
  }
}

=== FILE: VersionInfo.dfy ===
/** `expose_version_info`: the release's parsed version record reshaped into
    the response's `versionInfo` object (release.py lines 27-47). */
module VersionInfo {
  import opened Wrappers

  /** The `version_parsed` dict of a release's version info. */
  datatype ParsedVersion = ParsedVersion(
    major: int,
    minor: int,
    patch: int,
    pre: Option<string>,
    buildCode: Option<string>,
    components: int)

  /** `Release.version_info`; `versionParsed` is `None` when the parse is falsy. */
  datatype Info = Info(
    package: Option<string>,
    versionRaw: string,
    versionParsed: Option<ParsedVersion>,
    description: string,
    buildHash: Option<string>)

  /** The exposed `version` object: `raw` always, the parsed keys only when parsing succeeded. */
  datatype ExposedVersion = ExposedVersion(raw: string, parsed: Option<ParsedKeys>)

  /** The keys `major`, `minor`, `patch`, `pre`, `buildCode`, `components`. */
  datatype ParsedKeys = ParsedKeys(
    major: int,
    minor: int,
    patch: int,
    pre: Option<string>,
    buildCode: Option<string>,
    components: int)

  datatype ExposedInfo = ExposedInfo(
    package: Option<string>,
    version: ExposedVersion,
    description: string,
    buildHash: Option<string>)

  function ExposeParsed(p: ParsedVersion): ParsedKeys {
    ParsedKeys(p.major, p.minor, p.patch, p.pre, p.buildCode, p.components)
  }

  /** `expose_version_info(info)`. */
  function Expose(info: Option<Info>): (r: Option<ExposedInfo>)
    ensures r.Some? <==> info.Some?
    ensures r.Some? ==> r.value.version.raw == info.value.versionRaw
    ensures r.Some? ==> (r.value.version.parsed.Some? <==> info.value.versionParsed.Some?)
    ensures r.Some? ==>
      && r.value.package == info.value.package
      && r.value.description == info.value.description
      && r.value.buildHash == info.value.buildHash
    ensures r.Some? && r.value.version.parsed.Some? ==>
      var p, k := info.value.versionParsed.value, r.value.version.parsed.value;
      && k.major == p.major && k.minor == p.minor && k.patch == p.patch
      && k.pre == p.pre && k.buildCode == p.buildCode && k.components == p.components
  {
    match info
    case None => None
    case Some(i) =>
      var parsed := match i.versionParsed
        case None => None
        case Some(p) => Some(ExposeParsed(p));
      Some(ExposedInfo(i.package, ExposedVersion(i.versionRaw, parsed), i.description, i.buildHash))
  }

  /** Inverse of `Expose`: reads the response object back into the stored record. */
  function Recover(e: Option<ExposedInfo>): Option<Info> {
    match e
    case None => None
    case Some(x) =>
      var parsed := match x.version.parsed
        case None => None
        case Some(p) => Some(ParsedVersion(p.major, p.minor, p.patch, p.pre, p.buildCode, p.components));
      Some(Info(x.package, x.version.raw, parsed, x.description, x.buildHash))
  }

  /** Exposing loses nothing: every stored field is found again in the response. */
  lemma ExposeRoundTrip(info: Option<Info>)
    ensures Recover(Expose(info)) == info
  {
  }
}

=== FILE: Wrappers.dfy ===
/** Optional values and results with an error, standing in for Python's
    `None` and for the exceptions the serializer raises. */
module Wrappers {

  datatype Option<+T> = None | Some(value: T)

  datatype Result<+T, +E> = Success(value: T) | Failure(error: E)
}
